=== FILE: README.md ===
# pandas_alive bar chart race: a Dafny model

This project models how the `BarChart` of `pandas_alive` turns a table of
values into the frames of an animated bar chart race. One row of the table is
one period, and one column is one competitor. The model covers:

- the ranking of each row (pandas `rank(method="first", ascending=False)`);
- clipping the ranks at `n_bars + 1`;
- inverting the ranks for the "desc"/"h" and "asc"/"v" layouts;
- stretching the table to `steps_per_period` frames per period by linear
  interpolation (`prepare_data`);
- the colour list (`get_colors`), the label position, the frame rate and the
  interval, and the `n_bars` default;
- the numeric-column filter of `get_data_cols`, and its failure on a repeated column label;
- the figure-size arithmetic of `calculate_new_figsize`;
- per frame, what `plot_bars` leaves on the axes: the bar container it adds,
  the value-axis limit, and the period and bar labels;
- the container removal of `anim_func`;
- the choice of writer when saving;
- the frame count of `animate_multiple_plots`.

The drawing code is imperative, so the axes are a class (`Charts.Axes`) whose
fields the methods of `Charts.BarChart` update in place. Each method is proved
against a pure specification function (`PlotStep`, `Survivors`). The ranking,
interpolation and colour logic are pure functions with lemmas.

Modules, one per file:

- `Results`: the error datatype and `Result`.
- `Sequences`: boolean-mask positions, selection, max and min.
- `Arithmetic`: small nonlinear facts.
- `Ranking`: rank, clip and placement.
- `Interpolation`: re-indexing and linear interpolation.
- `Preparation`: `prepare_data`.
- `Colors`: `get_colors`.
- `DataColumns`: `get_data_cols`.
- `Params`: validation, label position, frame rate and interval.
- `Output`: save routing and the multi-plot frame count.
- `Layout`: `calculate_new_figsize`.
- `Charts`: `__attrs_post_init__`, `plot_bars`, `anim_func` and `init_func`.

Numbers are Dafny `real`s, and DataFrames are row-major `seq<seq<real>>`. The
figure probe renders, matplotlib transforms, and I/O are outside the model.
Where a value comes from them, it is a parameter.

## Model

| member | source | states |
|---|---|---|
| Ranking.Rank | pandas_alive/charts.py:158 | every rank (one plus the number of columns ahead) lies between 1 and the row width |
| Ranking.Clip | pandas_alive/charts.py:158-160 | `clip(upper=n_bars + 1)`: the result is at most n_bars+1; a rank is kept unless it exceeds n_bars+1, in which case it becomes n_bars+1 |
| Ranking.Placement | pandas_alive/charts.py:158-164 | no contract of its own: the clipped rank, replaced by n_bars+1 minus it for ("desc", "h") and ("asc", "v"); PlacementBounds and ShownIffTopRanked state its range and filter |
| Ranking.RankOrder | pandas_alive/charts.py:158 | column k ranks strictly before column j exactly when k's value is larger, or the values are equal and k comes first (the "first" tie rule, descending) |
| Ranking.RankInjective | pandas_alive/charts.py:158 | two different columns of a row never share a rank |
| Ranking.RankPermutation | pandas_alive/charts.py:158 | the ranks of a row are a permutation of 1..width: each lies in range, all are distinct, and every value in 1..width is taken |
| Ranking.RankImageCard | pandas_alive/charts.py:158 | the ranks of the first m columns form m distinct values |
| Ranking.AheadHasSmallerRank | pandas_alive/charts.py:158 | a column ahead of another has a smaller rank |
| Ranking.LeaderExists | pandas_alive/charts.py:158 | a non-empty row has a column of rank 1 |
| Ranking.ClippedRankBounds | pandas_alive/charts.py:158-160 | after clipping, a rank is in 1..n_bars+1, and ranks up to n_bars+1 are unchanged |
| Ranking.PlacementBounds | pandas_alive/charts.py:158-164 | the bar location of a column lies in [0, n_bars+1] in both the inverted and the plain layout |
| Ranking.ShownIffTopRanked | pandas_alive/charts.py:158-164 | the location passes the bar filter (strictly between 0 and n_bars+1) exactly when the column's rank is at most n_bars, whichever of sort and orientation is used |
| Interpolation.Expand | pandas_alive/charts.py:165-167 | the re-indexed, interpolated table has (rows−1)·steps_per_period+1 rows of the original width; its contents are stated by ExpandAtKnot, ExpandIsLerp and ExpandRoundTrip |
| Interpolation.ExpandAtKnot | pandas_alive/charts.py:156-157 | row r of the table becomes frame r·steps_per_period |
| Interpolation.ExpandBetweenKnots | pandas_alive/charts.py:165-167 | the frames between two original rows hold the linear interpolation between them |
| Interpolation.ExpandRoundTrip | pandas_alive/charts.py:156-167 | taking every steps_per_period-th frame of the stretched table gives the original table back |
| Interpolation.ExpandIsLerp | pandas_alive/charts.py:165-167 | a frame between knots is the Lerp of the two neighbouring rows at k/steps_per_period |
| Interpolation.ExpandEqualSteps | pandas_alive/charts.py:165-167 | consecutive frames within one period differ by the same amount, (next − current)/steps_per_period |
| Interpolation.ExpandWithinKnots | pandas_alive/charts.py:165-167 | every interpolated value lies between the values of the two neighbouring original rows |
| Interpolation.LerpEnds | pandas_alive/charts.py:166 | linear interpolation starts at one row's value and ends at the next row's value |
| Interpolation.LerpStep | pandas_alive/charts.py:166 | linear interpolation moves by equal steps |
| Interpolation.LerpWithin | pandas_alive/charts.py:166 | an interpolated value lies between the two end values |
| Interpolation.LerpStrictlyInside | pandas_alive/charts.py:166-167 | when both end values lie strictly inside an open interval, so does every value between them |
| Preparation.RankTable | pandas_alive/charts.py:158-164 | one placement row per table row, each as wide as its row; PreparedRows and RankTableBounds state what the entries are |
| Preparation.PrepareData | pandas_alive/charts.py:155-168 | fails with EmptyTable exactly when the table has no rows; otherwise both tables have (rows−1)·steps_per_period+1 frames of full width |
| Preparation.PreparedRows | pandas_alive/charts.py:155-168 | at frame r·steps_per_period the values are row r and the ranks are its placements; between knots both tables are interpolated |
| Preparation.RankTableBounds | pandas_alive/charts.py:158-167 | every rank in every frame lies in [0, n_bars+1] |
| Preparation.ShownAtOriginalRow | pandas_alive/charts.py:158-167 | at the first frame of a period, a column passes the filter exactly when its rank in that row is at most n_bars |
| Preparation.EveryFrameShowsABar | pandas_alive/charts.py:158-167 | with at least one column and n_bars ≥ 1, every frame has a column strictly inside (0, n_bars+1) |
| Colors.ChartColors | pandas_alive/charts.py:138-144 | fails with ZeroDivision exactly when the colour list is empty and there are columns; otherwise gives one colour per column |
| Colors.ChartColorsCycle | pandas_alive/charts.py:141-144 | colour j is colour j mod n of the n supplied colours |
| Colors.Repeat | pandas_alive/charts.py:143 | `list * k` has k times as many entries as the list; RepeatAt states which entry sits where |
| Colors.RepeatAt | pandas_alive/charts.py:143 | entry i of a list repeated k times is entry i mod n of the list |
| DataColumns.DataCols | pandas_alive/charts.py:71-86 | no contract of its own: the value get_data_cols returns, as one expression over the mask of numeric columns; DataColsFailure and NumericColumnsInOrder state its failures and contents, and GetDataCols is proved equal to it |
| DataColumns.KeyString | pandas_alive/charts.py:84 | `str(col)`: a string label is kept as it is; a non-negative integer label becomes decimal digits that read back as the integer; a negative one becomes a minus sign followed by such digits for its absolute value |
| DataColumns.GetDataCols | pandas_alive/charts.py:71-86 | the loop, which stops at the first column whose label is repeated, returns exactly DataCols |
| DataColumns.DataColsFailure | pandas_alive/charts.py:71-86 | get_data_cols fails exactly when some label is repeated (`df[col]` is then a DataFrame without `dtype`: AmbiguousColumn) or no column is numeric (NoNumericColumns); a repeated label is reported first |
| DataColumns.NumericKeysSelect | pandas_alive/charts.py:72-80 | appending labels column by column, as the loop does, gives the labels the numeric mask selects |
| DataColumns.NumericColumnsInOrder | pandas_alive/charts.py:79-86 | the result lists every numeric column exactly once, in column order, as the string of its label, and no other column |
| DataColumns.NatStringRoundTrip | pandas_alive/charts.py:84 | the decimal string of an integer label reads back as that integer |
| Params.ValidateParams | pandas_alive/charts.py:129-136 | succeeds exactly when fig is absent or a Figure, sort is "asc"/"desc" and orientation is "h"/"v"; a bad fig gives FigureTypeError, otherwise a bad sort gives SortValueError, otherwise a bad orientation gives OrientationValueError |
| Params.LabelPosition | pandas_alive/charts.py:146-153 | both label coordinates lie strictly inside the axes (between 0 and 1) |
| Params.LabelAwayFromLeader | pandas_alive/charts.py:146-153 | along the bar-position axis the period label sits in the lower half exactly when the ranks are inverted; along the value axis it sits in the upper half |
| Params.EffectiveBars | pandas_alive/charts.py:119 | no contract of its own: `self.n_bars or self.df.shape[1]`, the column count when n_bars is 0 and n_bars otherwise; DefaultBarsShowEveryColumn states what the default achieves |
| Params.DefaultBarsShowEveryColumn | pandas_alive/charts.py:119 | with `n_bars` left at 0, the default gives one bar slot per column, so every column passes the bar filter in every period, whatever the sort and orientation |
| Params.Fps | pandas_alive/charts.py:123 | fails exactly when period_length is 0 |
| Params.Interval | pandas_alive/charts.py:66 | fails exactly when steps_per_period is 0 |
| Params.FpsTimesInterval | pandas_alive/charts.py:123 | frame rate × frame interval is 1000 ms |
| Output.Extension | pandas_alive/charts.py:337 | `split(".")[-1]` is the longest dot-free suffix, preceded by a dot unless it is the whole name |
| Output.GifRouting | pandas_alive/charts.py:337-341 | the gif test holds exactly for names ending in ".gif" and for the bare name "gif" |
| Output.Save | pandas_alive/charts.py:337-341 | passes the file name and fps through, and chooses imagemagick exactly for gif names |
| Output.MultiPlotFrameCount | pandas_alive/charts.py:413 | fails exactly when there are no plots or some plot has no frames (`max`/`min` of an empty sequence) |
| Output.MultiPlotSkipsLastFrame | pandas_alive/charts.py:413 | as written, the count is one less than some chart's frame count, and below every chart's frame count |
| Output.MultiPlotTenAndFifteen | pandas_alive/charts.py:413 | charts of 10 and 15 frames animate together for 9 frames |
| Output.IntendedMultiPlotFrameCount | pandas_alive/charts.py:413 | the corrected count fails exactly when there are no plots |
| Output.IntendedMultiPlotShowsShortest | pandas_alive/charts.py:413 | the corrected count equals the shortest chart's frame count and is no larger than any chart's |
| Layout.NewFigsize | pandas_alive/charts.py:222-242 | fails exactly when the new width or height is not positive: with NegativeFigureSize when either is negative (`set_size_inches` rejects it), otherwise (a zero size) with NonFiniteAxesRect: the numpy division by the new size gives inf or nan, which `add_axes` (charts.py:174) rejects |
| Layout.FigsizeMargins | pandas_alive/charts.py:222-242 | the figure grows by exactly the extra margin the probe measured; the axes start at the probe's margin in inches; the top-right corner stays at its original fraction |
| Layout.FigsizeGrows | pandas_alive/charts.py:227-235 | a probe margin at least as large as the original never shrinks the figure |
| Layout.AxesWidthKeptOnlyAtRightEdge | pandas_alive/charts.py:238-242 | the axes keep their width in inches exactly when the margin did not move or the axes reach the figure's right edge |
| Charts.Derive | pandas_alive/charts.py:118-127 | succeeds exactly when the table is non-empty, period_length ≠ 0, create_figure's new size is positive, and there are colours or no columns; otherwise it fails with the first of EmptyTable, ZeroDivision (fps), the figure-size error and ZeroDivision (colours); on success, n_bars is the default-filled value, the tables have the prepared shape, and fps, the figure size, the label position and the colours are those of Fps, NewFigsize, LabelPosition and ChartColors |
| Charts.DerivedColors | pandas_alive/charts.py:127 | the chart's colour for column j is colour j mod n of the n supplied colours |
| Charts.DerivedTables | pandas_alive/charts.py:119-120 | the derived tables are prepare_data's, computed with the default-filled n_bars |
| Charts.PeriodRow | pandas_alive/charts.py:273 | the row index `i // steps_per_period` is a valid index into the string index |
| Charts.PeriodRowOfStep | pandas_alive/charts.py:273 | every frame of period r, from r·steps_per_period up to the next period, shows row r's label |
| Charts.FrameBars | pandas_alive/charts.py:245-250 | no contract of its own: the bars of frame i, selected by the mask `0 < rank < n_bars+1`; FrameBarsAligned states what it keeps |
| Charts.FrameBarsAligned | pandas_alive/charts.py:245-250 | one mask selects locations, lengths, tick labels and colours alike, in column order; a column is kept exactly when its location is strictly between 0 and n_bars+1 |
| Charts.ShownAtPeriodStart | pandas_alive/charts.py:245-247 | at the first frame of a period, the chart draws exactly the columns whose rank in that row is at most n_bars |
| Charts.PlotStepCompletes | pandas_alive/charts.py:245-270 | with at least one column and n_bars ≥ 1, no frame's selection is empty, so `max()` never fails |
| Charts.ScaleStepBounds | pandas_alive/charts.py:260-270 | the value-axis upper limit is a drawn bar's length times 1.1 ("h") or 1.16 (otherwise); it bounds every scaled bar and so every non-negative bar; the lower limit and the other axis are unchanged |
| Charts.PlotStepContainers | pandas_alive/charts.py:245-270 | plot_bars appends exactly the frame's container; it completes exactly when some bar passes the filter; otherwise nothing else changes |
| Charts.PlotStep | pandas_alive/charts.py:244-317 | no contract of its own: the axes state and completion flag after plot_bars(i); PlotStepContainers, ScaleStepBounds and PlotStepTexts state its effect |
| Charts.PlotStepTexts | pandas_alive/charts.py:272-317 | with use_index, slot 0 holds the frame's period label; with use_index alone, the other texts keep their slots and the list grows only from empty to one; with label_bars, the texts are that label (if any) followed by one value label per drawn bar, in bar order; with neither, the texts are unchanged |
| Charts.Survivors | pandas_alive/charts.py:320-321 | the containers left by removing while iterating: about half of them (⌊n/2⌋), the k-th survivor being original container 2k+1 |
| Charts.BarChart.constructor | pandas_alive/charts.py:118-127 | the chart is built exactly when Derive succeeds, and holds Derive's result |
| Charts.BarChart.FrameCount | pandas_alive/charts.py:327-328 | the number of frames is (rows−1)·steps_per_period+1 |
| Charts.BarChart.PlotBars | pandas_alive/charts.py:244-317 | the axes' new containers, texts and limits, and whether the call completes, are those of PlotStep on the old axes state |
| Charts.BarChart.PlotTexts | pandas_alive/charts.py:272-317 | the removal loop and the append loop leave TextStep of the old texts; containers and limits are unchanged |
| Charts.BarChart.RemoveContainers | pandas_alive/charts.py:320-321 | removing while iterating leaves the containers at original positions 1, 3, 5, …; texts and limits are unchanged |
| Charts.BarChart.AnimFunc | pandas_alive/charts.py:319-322 | the new state is PlotStep applied to the old state with its containers reduced to Survivors |
| Charts.BarChart.InitFunc | pandas_alive/charts.py:324-325 | the new state is PlotStep of frame 0 |

## Left out

- Rendering is not modelled: the bar and text artists' appearance, fonts, tick formatting, and the transforms that place bar labels (the 0.01 and 0.015 offsets). A bar label is modelled only by the value it shows.
- FuncAnimation, `make_animation`'s `anim.save`, and the `animate_multiple_plots` driver are not modelled. Only the frame count and the writer choice are. They call into matplotlib, which is not part of this model.
- `create_figure` and the two probe renders of `calculate_new_figsize` are not modelled, because they draw with matplotlib. The two measured axes positions are fields of `Charts.Config`, and `Charts.Derive` passes them to `Layout.NewFigsize`, so the size failures are part of construction. The axes that `add_axes` creates are not derived from that size: the model's axes start from given limits.
- Colormap lookup is not modelled: resolving a colormap name, `DARK24`, `cmap(range(N))` and `.tolist()`. `Colors.ChartColors` starts from the already-resolved colour list. The `TypeError` for an unsupported `cmap` belongs to that lookup.
- `LineChart` is not modelled. It is not part of the bar chart, and it reads attributes it never sets (`series`, `xdata`, `filename`).
- Floating point is not modelled: numbers are exact reals. NaN, the `{x:,.0f}` formatting and pandas dtypes are out of scope. Column labels are strings or integers; labels of other types (floats, timestamps, tuples) are not modelled.
- Charts.BarChart.constructor: requires `steps_per_period > 0`. With 0, `df_values.index * 0` makes every index label 0. With two or more rows, `reindex` on that duplicated axis raises `ValueError`. With one row, the chart is built with `fps` 0, and `interval` (charts.py:66) divides by zero. Neither failure is modelled.
- Charts.BarChart.constructor: a `fig` passed by the caller is not modelled. On the single-chart path (`make_animation`), such a figure leaves `self.ax` unset, so `plot_bars` would fail on the first frame. `animate_multiple_plots` assigns `plot.ax` before `init_func` (charts.py:404-407), so there such a chart draws normally.
- DataColumns.GetDataCols: the `col not in self.df.columns` check at charts.py:74 is not modelled. It cannot fail, because the loop iterates over the columns themselves.
- Params.ValidateParams is modelled, but nothing in the chart calls it. The rest of the model therefore accepts any `sort` and `orientation`: a value other than "h" is treated as vertical, and inversion applies only to the two exact pairs.
- Charts.ScaleStepBounds: matplotlib's autoscaling is not modelled. `bar`/`barh` rescale every axis whose limits have not been fixed yet, and `get_xlim()[0]`/`get_ylim()[0]` (charts.py:260, 270) are read after that. The model keeps the lower value limit and the position axis as they were, which holds only once those limits are fixed. It does not hold on the first frame, and it does not hold on the axes from `plt.subplots` in `animate_multiple_plots` (charts.py:403-405), whose position axis is never fixed. The same applies to the limits stated by Charts.BarChart.PlotBars.
- Charts.BarChart.PlotBars: when no bar passes the filter, the source raises `ValueError` from `max()` of the empty selection, after the empty container has been added. The model returns `ok = false` with that state, rather than modelling the exception.
- Charts.BarChart.RemoveContainers: the source iterates over `ax.containers` while removing from it, so with two or more containers every second one stays. The model keeps that behaviour: each frame starts from one container, which is removed, so one container stays on the axes.

## Findings

| source | as written | input that shows it | evidently intended | confidence | as-written member | corrected member |
|---|---|---|---|---|---|---|
| pandas_alive/charts.py:413 | the frame count is `min([max(plot.get_frames()) ...])`, the smallest last frame index, so the shortest chart's last frame is never drawn | two charts with 10 and 15 frames give 9 frames | `min(len(plot.get_frames()))`, the shortest chart's frame count (10) | medium, not executed | Output.MultiPlotSkipsLastFrame | Output.IntendedMultiPlotShowsShortest |

=== FILE: arithmetic.dfy ===
/** Small facts of integer and real arithmetic used by the proofs. */
module Arithmetic {

  lemma MulMono(a: nat, b: nat, c: nat)
    requires a <= b
    ensures a * c <= b * c
  {}

  /** Division of `q * spp + m` by `spp` gives back `q` and `m`. */
  lemma DivModUnique(q: nat, m: nat, spp: nat)
    requires m < spp
    ensures (q * spp + m) / spp == q
    ensures (q * spp + m) % spp == m
  {
    var f := q * spp + m;
    var d := f / spp - q;
    assert d * spp == m - f % spp;
    if d > 0 {
      MulMono(1, d, spp);
    }
  }

  lemma MulStrict(c: real, x: real, y: real)
    requires c > 0.0 && x < y
    ensures c * x < c * y
  {
    assert c * y - c * x == c * (y - x);
  }

  lemma MulWeak(c: real, x: real, y: real)
    requires c >= 0.0 && x <= y
    ensures c * x <= c * y
  {
    assert c * y - c * x == c * (y - x);
  }

  /** A product of reals is zero exactly when a factor is. */
  lemma ZeroProduct(a: real, b: real)
    ensures a * b == 0.0 <==> a == 0.0 || b == 0.0
  {
    if a != 0.0 && a * b == 0.0 {
      assert b == (a * b) / a;
    }
  }

  lemma MulNonNeg(a: real, b: real)
    requires a >= 0.0 && b >= 0.0
    ensures a * b >= 0.0
  {
    MulWeak(a, 0.0, b);
  }
}

=== FILE: charts.dfy ===
/** `BarChart`: the chart's configuration and derived tables, and the
    per-frame drawing that updates the axes in place. */
module Charts {
  import opened Results
  import opened Sequences
  import opened Ranking
  import opened Interpolation
  import opened Preparation
  import opened Colors
  import opened DataColumns
  import opened Params
  import opened Layout
  import Arithmetic

  /** A text artist in `ax.texts`: the period label, or a bar's value label
      (its number formatting is not modelled). */
  datatype Text = PeriodText(period: string) | BarText(value: real)

  /** The container one `ax.bar`/`ax.barh` call adds: bar positions, bar
      lengths, tick labels and colours. */
  datatype Bars = Bars(locations: seq<real>, lengths: seq<real>, tickLabels: seq<ColumnKey>, colors: seq<Color>)

  datatype Limits = Limits(lo: real, hi: real)

  /** A snapshot of the axes state the chart reads and writes. */
  datatype AxesState = AxesState(containers: seq<Bars>, texts: seq<Text>, xlim: Limits, ylim: Limits)

  /** The part of a matplotlib Axes that the bar chart reads and writes. */
  class Axes {
    var containers: seq<Bars>
    var texts: seq<Text>
    var xlim: Limits
    var ylim: Limits

    constructor (xlim: Limits, ylim: Limits)
      ensures State() == AxesState([], [], xlim, ylim)
    {
      containers, texts := [], [];
      this.xlim, this.ylim := xlim, ylim;
    }

    function State(): AxesState
      reads this
    {
      AxesState(containers, texts, xlim, ylim)
    }
  }

  /** The attributes a BarChart is constructed with. `index` is the table's
      index already converted with `astype("str")`; `cmap` is the resolved
      colour list; `figWidth` and `figHeight` are `figsize`. `origPos` and
      `probePos` are the axes positions that `calculate_new_figsize` measures
      in its two probe renders. */
  datatype Config = Config(
    table: seq<seq<real>>,
    index: seq<string>,
    columns: seq<ColumnKey>,
    useIndex: bool,
    stepsPerPeriod: nat,
    periodLength: int,
    orientation: string,
    sort: string,
    nBars: int,
    labelBars: bool,
    cmap: seq<Color>,
    figWidth: real,
    figHeight: real,
    origPos: Box,
    probePos: Box)

  /** The shape every DataFrame has: one index entry per row and one entry
      per column in every row; and a positive number of steps per period. */
  predicate WellFormed(c: Config) {
    Rectangular(c.table, |c.columns|) && |c.index| == |c.table| && c.stepsPerPeriod > 0
  }

  /** The fields `__attrs_post_init__` sets. */
  datatype Derived = Derived(
    nBars: int,
    values: seq<seq<real>>,
    ranks: seq<seq<real>>,
    origIndex: seq<string>,
    fps: real,
    labelX: real,
    labelY: real,
    figure: Figsize,
    colors: seq<Color>)

  /** __attrs_post_init__ without a caller's `fig`, in its order: the `n_bars`
      default, prepare_data, the string index, the frame rate, create_figure's
      size computation, the label position and the colours. */
  function Derive(c: Config): (r: Result<Derived>)
    requires WellFormed(c)
    ensures r.Success? <==>
              && |c.table| > 0 && c.periodLength != 0
              && NewFigsize(c.figWidth, c.figHeight, c.origPos, c.probePos).Success?
              && (|c.cmap| > 0 || |c.columns| == 0)
    ensures r.Failure? ==>
              r.error == if |c.table| == 0 then EmptyTable
                         else if c.periodLength == 0 then ZeroDivision
                         else if NewFigsize(c.figWidth, c.figHeight, c.origPos, c.probePos).Failure?
                         then NewFigsize(c.figWidth, c.figHeight, c.origPos, c.probePos).error
                         else ZeroDivision
    ensures r.Success? ==>
              && r.value.nBars == EffectiveBars(c.nBars, |c.columns|)
              && |r.value.values| == |r.value.ranks| == (|c.table| - 1) * c.stepsPerPeriod + 1
              && Rectangular(r.value.values, |c.columns|) && Rectangular(r.value.ranks, |c.columns|)
              && r.value.origIndex == c.index
              && |r.value.colors| == |c.columns|
    ensures r.Success? ==>
              && r.value.fps == Fps(c.periodLength, c.stepsPerPeriod).value
              && r.value.figure == NewFigsize(c.figWidth, c.figHeight, c.origPos, c.probePos).value
              && (r.value.labelX, r.value.labelY) == LabelPosition(c.orientation, c.sort)
              && r.value.colors == ChartColors(c.cmap, |c.columns|).value
  {
    var nBars := EffectiveBars(c.nBars, |c.columns|);
    var prepared :- PrepareData(c.table, |c.columns|, c.stepsPerPeriod, nBars, c.sort, c.orientation);
    var fps :- Fps(c.periodLength, c.stepsPerPeriod);
    var figure :- NewFigsize(c.figWidth, c.figHeight, c.origPos, c.probePos);
    var (x, y) := LabelPosition(c.orientation, c.sort);
    var colors :- ChartColors(c.cmap, |c.columns|);
    Success(Derived(nBars, prepared.values, prepared.ranks, c.index, fps, x, y, figure, colors))
  }

  /** The chart's bar colours cycle through the colour list: column j gets
      colour j mod n of the n supplied colours. */
  lemma DerivedColors(c: Config, d: Derived, j: nat)
    requires WellFormed(c) && Derive(c) == Success(d) && j < |c.columns|
    ensures d.colors[j] == c.cmap[j % |c.cmap|]
  {
    ChartColorsCycle(c.cmap, |c.columns|, j);
  }

  /** The shape facts of the derived tables that drawing a frame relies on. */
  predicate Shaped(c: Config, d: Derived) {
    && WellFormed(c) && |c.table| > 0
    && |d.values| == |d.ranks| == (|c.table| - 1) * c.stepsPerPeriod + 1
    && Rectangular(d.values, |c.columns|) && Rectangular(d.ranks, |c.columns|)
    && |d.colors| == |c.columns| && d.origIndex == c.index
  }

  lemma DerivedIsShaped(c: Config, d: Derived)
    requires WellFormed(c) && Derive(c) == Success(d)
    ensures Shaped(c, d)
  {}

  /** The bar filter `(bar_location > 0) & (bar_location < n_bars + 1)`. */
  function BarMask(locations: seq<real>, nBars: int): (m: seq<bool>)
    ensures |m| == |locations|
    ensures forall j :: 0 <= j < |m| ==> m[j] == (0.0 < locations[j] < (nBars + 1) as real)
  {
    seq(|locations|, j requires 0 <= j < |locations| => 0.0 < locations[j] < (nBars + 1) as real)
  }

  /** The bars drawn for frame `i`: one mask on the ranks, applied to ranks,
      lengths, column labels and colours alike. */
  function FrameBars(c: Config, d: Derived, i: nat): Bars
    requires Shaped(c, d) && i < |d.ranks|
  {
    var keep := Positions(BarMask(d.ranks[i], d.nBars));
    Bars(Select(d.ranks[i], keep), Select(d.values[i], keep), Select(c.columns, keep), Select(d.colors, keep))
  }

  /** The original row whose label frame `i` shows: `i // steps_per_period`. */
  function PeriodRow(c: Config, i: nat): (r: nat)
    requires WellFormed(c) && |c.table| > 0 && i < (|c.table| - 1) * c.stepsPerPeriod + 1
    ensures r < |c.index|
  {
    Segment(|c.table|, c.stepsPerPeriod, i);
    i / c.stepsPerPeriod
  }

  /** Every sub-step of period `r`, from `r * steps_per_period` up to the next
      period, shows row `r`'s index label. */
  lemma PeriodRowOfStep(c: Config, r: nat, k: nat)
    requires WellFormed(c) && r < |c.table| && k < c.stepsPerPeriod
    requires k > 0 ==> r + 1 < |c.table|
    ensures r * c.stepsPerPeriod + k < (|c.table| - 1) * c.stepsPerPeriod + 1
    ensures PeriodRow(c, r * c.stepsPerPeriod + k) == r
  {
    var spp := c.stepsPerPeriod;
    if k > 0 {
      Arithmetic.MulMono(r + 1, |c.table| - 1, spp);
      assert (r + 1) * spp == r * spp + spp;
    } else {
      Arithmetic.MulMono(r, |c.table| - 1, spp);
    }
    Arithmetic.DivModUnique(r, k, spp);
  }

  /** `use_index`: the period label is created in slot 0 when there are no
      texts yet, and otherwise overwrites slot 0. */
  function PeriodStep(texts: seq<Text>, period: string): seq<Text> {
    if |texts| == 0 then [PeriodText(period)] else texts[0 := PeriodText(period)]
  }

  function BarTexts(lengths: seq<real>): (ts: seq<Text>)
    ensures |ts| == |lengths|
    ensures forall k :: 0 <= k < |lengths| ==> ts[k] == BarText(lengths[k])
  {
    seq(|lengths|, k requires 0 <= k < |lengths| => BarText(lengths[k]))
  }

  /** `label_bars`: the texts from slot `int(use_index)` on are removed and
      one value label per drawn bar is added. */
  function LabelStep(texts: seq<Text>, useIndex: bool, lengths: seq<real>): seq<Text> {
    var keep := if useIndex then 1 else 0;
    (if |texts| <= keep then texts else texts[..keep]) + BarTexts(lengths)
  }

  /** The value-axis scale factor: 1.1 for "h", 1.16 otherwise. */
  function HeadroomFactor(orientation: string): real {
    if orientation == "h" then 1.1 else 1.16
  }

  /** The value-axis limit plot_bars sets: its upper end becomes the longest
      drawn bar times the headroom factor, on x for "h" and on y otherwise. */
  function ScaleStep(s: AxesState, orientation: string, lengths: seq<real>): AxesState
    requires |lengths| > 0
  {
    var top := Max(lengths) * HeadroomFactor(orientation);
    if orientation == "h" then s.(xlim := Limits(s.xlim.lo, top))
    else s.(ylim := Limits(s.ylim.lo, top))
  }

  /** The texts plot_bars leaves: the period label step, then the bar label step. */
  function TextStep(texts: seq<Text>, useIndex: bool, labelBars: bool, period: string, lengths: seq<real>): seq<Text> {
    var t := if useIndex then PeriodStep(texts, period) else texts;
    if labelBars then LabelStep(t, useIndex, lengths) else t
  }

  /** plot_bars(i) on an axes state: the new state, and whether it completed
      (false when no bar passes the filter: `max()` of the empty selection
      raises after the empty container has been added). */
  function PlotStep(c: Config, d: Derived, s: AxesState, i: nat): (AxesState, bool)
    requires Shaped(c, d) && i < |d.ranks|
  {
    var b := FrameBars(c, d, i);
    var s1 := s.(containers := s.containers + [b]);
    if b.lengths == [] then (s1, false)
    else
      var s2 := ScaleStep(s1, c.orientation, b.lengths);
      (s2.(texts := TextStep(s2.texts, c.useIndex, c.labelBars, d.origIndex[PeriodRow(c, i)], b.lengths)), true)
  }

  /** The containers left by `for bar in ax.containers: bar.remove()`: each
      removal shifts the list under the running iterator, so the original
      positions 0, 2, 4, ... are removed and 1, 3, 5, ... survive. */
  function Survivors<T>(s: seq<T>): (r: seq<T>)
    ensures 2 * |r| <= |s| <= 2 * |r| + 1
    ensures forall k :: 0 <= k < |r| ==> r[k] == s[2 * k + 1]
  {
    if |s| < 2 then []
    else
      var rest := Survivors(s[2..]);
      assert forall k :: 0 <= k < |rest| ==> rest[k] == s[2 * k + 3];
      [s[1]] + rest
  }

  /** Removing the entry right after a prefix `p` leaves `p` followed by the rest. */
  lemma RemoveAfter<T>(p: seq<T>, x: T, rest: seq<T>)
    ensures var s := p + [x] + rest; s[..|p|] + s[|p| + 1..] == p + rest
  {
    var s := p + [x] + rest;
    assert s[..|p|] == p;
    assert s[|p| + 1..] == rest;
  }

  /** Two more entries of the original list add one survivor, the second. */
  lemma SurvivorsStep<T>(s: seq<T>, n: nat)
    requires 2 * n + 2 <= |s|
    ensures Survivors(s[..2 * n + 2]) == Survivors(s[..2 * n]) + [s[2 * n + 1]]
  {
    var long, short := Survivors(s[..2 * n + 2]), Survivors(s[..2 * n]);
    assert |long| == n + 1 && |short| == n;
    forall k | 0 <= k < n + 1
      ensures long[k] == (short + [s[2 * n + 1]])[k]
    {
      if k < n {
        assert short[k] == s[..2 * n][2 * k + 1];
      }
    }
  }

  /** One pass of the removal loop: with `idx` entries already gone, the
      entry at `idx` is the original entry `2 * idx`; removing it leaves the
      survivors so far followed by the untouched rest. */
  lemma RemovalStep<T>(before: seq<T>, idx: nat, cur: seq<T>)
    requires 2 * idx < |before|
    requires cur == Survivors(before[..2 * idx]) + before[2 * idx..]
    ensures idx < |cur|
    ensures cur[..idx] + cur[idx + 1..] == Survivors(before[..2 * idx]) + before[2 * idx + 1..]
  {
    assert |Survivors(before[..2 * idx])| == idx;
    assert before[2 * idx..] == [before[2 * idx]] + before[2 * idx + 1..];
    RemoveAfter(Survivors(before[..2 * idx]), before[2 * idx], before[2 * idx + 1..]);
  }

  /** After a removal the next entry survives: the boundary moves two places on. */
  lemma SurvivorsAdvance<T>(before: seq<T>, n: nat)
    requires 2 * n + 2 <= |before|
    ensures Survivors(before[..2 * n]) + before[2 * n + 1..] == Survivors(before[..2 * n + 2]) + before[2 * n + 2..]
  {
    SurvivorsStep(before, n);
    assert before[2 * n + 1..] == [before[2 * n + 1]] + before[2 * n + 2..];
  }

  /** Removing the last entry of an odd-length list ends the loop with the
      survivors of the whole list. */
  lemma SurvivorsLast<T>(before: seq<T>, n: nat)
    requires 2 * n + 1 == |before|
    ensures Survivors(before[..2 * n]) + before[2 * n + 1..] == Survivors(before)
  {
    assert before[2 * n + 1..] == [];
    var whole, short := Survivors(before), Survivors(before[..2 * n]);
    assert |whole| == n && |short| == n;
    forall k | 0 <= k < n
      ensures whole[k] == short[k]
    {
      assert short[k] == before[..2 * n][2 * k + 1];
    }
  }

  /** The four arrays of a frame's container stay aligned: entry `k` of each
      comes from the same column `p[k]`, the columns kept are exactly those
      whose rank passes the filter, and they keep the table's column order. */
  lemma FrameBarsAligned(c: Config, d: Derived, i: nat) returns (p: seq<nat>)
    requires Shaped(c, d) && i < |d.ranks|
    ensures var b := FrameBars(c, d, i);
            && |b.locations| == |b.lengths| == |b.tickLabels| == |b.colors| == |p|
            && Increasing(p)
            && (forall k :: 0 <= k < |p| ==>
                  && p[k] < |c.columns|
                  && b.locations[k] == d.ranks[i][p[k]] && b.lengths[k] == d.values[i][p[k]]
                  && b.tickLabels[k] == c.columns[p[k]] && b.colors[k] == d.colors[p[k]])
            && (forall j :: 0 <= j < |c.columns| ==>
                  (j in p <==> 0.0 < d.ranks[i][j] < (d.nBars + 1) as real))
  {
    p := Positions(BarMask(d.ranks[i], d.nBars));
    forall j | 0 <= j < |c.columns| && j in p
      ensures 0.0 < d.ranks[i][j] < (d.nBars + 1) as real
    {
      var k :| 0 <= k < |p| && p[k] == j;
    }
  }

  /** The value-axis limit is reached by a drawn bar scaled by the headroom
      factor, bounds every scaled bar and so every non-negative bar; the
      lower end and the other axis are left alone. */
  lemma ScaleStepBounds(s: AxesState, orientation: string, lengths: seq<real>)
    requires |lengths| > 0
    ensures var s2 := ScaleStep(s, orientation, lengths);
            orientation == "h" ==> s2.ylim == s.ylim && s2.xlim.lo == s.xlim.lo
    ensures var s2 := ScaleStep(s, orientation, lengths);
            orientation != "h" ==> s2.xlim == s.xlim && s2.ylim.lo == s.ylim.lo
    ensures var s2 := ScaleStep(s, orientation, lengths);
            var hi := if orientation == "h" then s2.xlim.hi else s2.ylim.hi;
            && (exists k :: 0 <= k < |lengths| && hi == lengths[k] * HeadroomFactor(orientation))
            && (forall k :: 0 <= k < |lengths| ==> lengths[k] * HeadroomFactor(orientation) <= hi)
            && (forall k :: 0 <= k < |lengths| && lengths[k] >= 0.0 ==> lengths[k] <= hi)
    ensures ScaleStep(s, orientation, lengths).containers == s.containers
    ensures ScaleStep(s, orientation, lengths).texts == s.texts
  {
    var m := Max(lengths);
    var f := HeadroomFactor(orientation);
    var s2 := ScaleStep(s, orientation, lengths);
    var hi := if orientation == "h" then s2.xlim.hi else s2.ylim.hi;
    assert hi == m * f;
    var k0 :| 0 <= k0 < |lengths| && lengths[k0] == m;
    assert hi == lengths[k0] * f;
    forall k | 0 <= k < |lengths|
      ensures lengths[k] * f <= hi
      ensures lengths[k] >= 0.0 ==> lengths[k] <= hi
    {
      HeadroomBelowTop(lengths[k], m, f);
    }
  }

  /** A bar no longer than the longest stays below the scaled limit, and a
      non-negative one stays below it unscaled as well. */
  lemma HeadroomBelowTop(x: real, m: real, f: real)
    requires x <= m && f >= 1.0
    ensures x * f <= m * f
    ensures x >= 0.0 ==> x <= m * f
  {
    Arithmetic.MulWeak(f, x, m);
    if x >= 0.0 {
      Arithmetic.MulWeak(x, 1.0, f);
    }
  }

  /** A plot_bars call appends exactly the frame's container; it completes
      exactly when some bar passes the filter, and otherwise changes nothing
      else. When it completes, the limits are those of ScaleStep. */
  lemma PlotStepContainers(c: Config, d: Derived, s: AxesState, i: nat)
    requires Shaped(c, d) && i < |d.ranks|
    ensures var (s2, ok) := PlotStep(c, d, s, i); var b := FrameBars(c, d, i);
            && s2.containers == s.containers + [b]
            && (ok <==> |b.lengths| > 0)
            && (!ok ==> s2 == s.(containers := s2.containers))
    ensures var (s2, ok) := PlotStep(c, d, s, i); var b := FrameBars(c, d, i);
            ok ==> s2.xlim == ScaleStep(s, c.orientation, b.lengths).xlim && s2.ylim == ScaleStep(s, c.orientation, b.lengths).ylim
  {}

  /** The texts a completed plot_bars leaves: with `use_index` slot 0 holds the
      frame's period label; with `label_bars` the texts are that label (if
      any) followed by one value label per drawn bar, in bar order. */
  lemma PlotStepTexts(c: Config, d: Derived, s: AxesState, i: nat)
    requires Shaped(c, d) && i < |d.ranks|
    ensures var (s2, ok) := PlotStep(c, d, s, i);
            ok && c.useIndex ==> |s2.texts| > 0 && s2.texts[0] == PeriodText(c.index[PeriodRow(c, i)])
    ensures var (s2, ok) := PlotStep(c, d, s, i);
            ok && c.labelBars ==>
              s2.texts == (if c.useIndex then [PeriodText(c.index[PeriodRow(c, i)])] else []) + BarTexts(FrameBars(c, d, i).lengths)
    ensures var (s2, ok) := PlotStep(c, d, s, i);
            ok && !c.useIndex && !c.labelBars ==> s2.texts == s.texts
    ensures var (s2, ok) := PlotStep(c, d, s, i);
            ok && c.useIndex && !c.labelBars ==>
              |s2.texts| == (if |s.texts| == 0 then 1 else |s.texts|) &&
              forall k :: 1 <= k < |s.texts| ==> s2.texts[k] == s.texts[k]
  {
    var (s2, ok) := PlotStep(c, d, s, i);
    if ok && c.useIndex {
      var t := PeriodStep(s.texts, c.index[PeriodRow(c, i)]);
      assert |t| > 0 && t[0] == PeriodText(c.index[PeriodRow(c, i)]);
      if c.labelBars {
        assert t[..1] == [PeriodText(c.index[PeriodRow(c, i)])];
      }
    }
  }

  /** Derive's tables are prepare_data's, with the effective `n_bars`. */
  lemma DerivedTables(c: Config, d: Derived)
    requires WellFormed(c) && Derive(c) == Success(d)
    ensures Shaped(c, d)
    ensures d.nBars == EffectiveBars(c.nBars, |c.columns|)
    ensures var p := PrepareData(c.table, |c.columns|, c.stepsPerPeriod, d.nBars, c.sort, c.orientation);
            p.Success? && d.values == p.value.values && d.ranks == p.value.ranks
  {
    DerivedIsShaped(c, d);
  }

  /** At the first frame of a period the chart draws exactly the columns whose
      rank in that period's original row is at most `n_bars`. */
  lemma ShownAtPeriodStart(c: Config, d: Derived, r: nat, j: nat)
    requires WellFormed(c) && Derive(c) == Success(d) && r < |c.table| && j < |c.columns|
    ensures Shaped(c, d) && r * c.stepsPerPeriod < |d.ranks|
    ensures j in Positions(BarMask(d.ranks[r * c.stepsPerPeriod], d.nBars)) <==> Rank(c.table[r], j) <= d.nBars
  {
    DerivedTables(c, d);
    ShownAtOriginalRow(c.table, |c.columns|, c.stepsPerPeriod, d.nBars, c.sort, c.orientation, r, j);
    var p := FrameBarsAligned(c, d, r * c.stepsPerPeriod);
  }

  /** With at least one column and an effective `n_bars` of at least one, no
      frame's selection is empty, so every plot_bars call completes. */
  lemma PlotStepCompletes(c: Config, d: Derived, s: AxesState, i: nat)
    requires WellFormed(c) && Derive(c) == Success(d) && i < |d.ranks|
    requires |c.columns| > 0 && EffectiveBars(c.nBars, |c.columns|) >= 1
    ensures Shaped(c, d) && PlotStep(c, d, s, i).1
  {
    DerivedTables(c, d);
    var j := EveryFrameShowsABar(c.table, |c.columns|, c.stepsPerPeriod, d.nBars, c.sort, c.orientation, i);
    var p := FrameBarsAligned(c, d, i);
    assert j in p;
    PlotStepContainers(c, d, s, i);
  }

  class BarChart {
    const config: Config
    const derived: Derived
    var ax: Axes

    ghost predicate Valid() {
      WellFormed(config) && Derive(config) == Success(derived) && Shaped(config, derived)
    }

    /** The chart after __attrs_post_init__, drawing into `ax`. */
    constructor (config: Config, ax: Axes)
      requires WellFormed(config) && Derive(config).Success?
      ensures Valid() && this.config == config && this.ax == ax
    {
      this.config := config;
      this.derived := Derive(config).value;
      this.ax := ax;
      DerivedIsShaped(config, Derive(config).value);
    }

    /** get_frames: `range(len(df_values))`, as its length. */
    function FrameCount(): (n: nat)
      requires Valid()
      ensures n == (|config.table| - 1) * config.stepsPerPeriod + 1
    {
      |derived.values|
    }

    /** plot_bars(i). */
    method PlotBars(i: nat) returns (ok: bool)
      requires Valid() && i < FrameCount()
      modifies ax
      ensures (ax.State(), ok) == PlotStep(config, derived, old(ax.State()), i)
    {
      var bars := FrameBars(config, derived, i);
      ax.containers := ax.containers + [bars];
      if bars.lengths == [] {
        return false;
      }
      var top := Max(bars.lengths) * HeadroomFactor(config.orientation);
      if config.orientation == "h" {
        ax.xlim := Limits(ax.xlim.lo, top);
      } else {
        ax.ylim := Limits(ax.ylim.lo, top);
      }
      ghost var scaled := ax.State();
      assert scaled == ScaleStep(old(ax.State()).(containers := old(ax.containers) + [bars]), config.orientation, bars.lengths);
      var period := derived.origIndex[PeriodRow(config, i)];
      PlotTexts(period, bars.lengths);
      ok := true;
    }

    /** The texts part of plot_bars: the period label, then the bar labels. */
    method PlotTexts(period: string, lengths: seq<real>)
      modifies ax
      ensures ax.texts == TextStep(old(ax.texts), config.useIndex, config.labelBars, period, lengths)
      ensures ax.containers == old(ax.containers) && ax.xlim == old(ax.xlim) && ax.ylim == old(ax.ylim)
    {
      if config.useIndex {
        if |ax.texts| == 0 {
          ax.texts := ax.texts + [PeriodText(period)];
        } else {
          ax.texts := ax.texts[0 := PeriodText(period)];
        }
      }
      if config.labelBars {
        var keep := if config.useIndex then 1 else 0;
        ghost var before := ax.texts;
        ghost var kept := if |before| <= keep then |before| else keep;
        while keep < |ax.texts|
          invariant kept <= |ax.texts| <= |before|
          invariant ax.texts[..kept] == before[..kept]
          invariant ax.containers == old(ax.containers) && ax.xlim == old(ax.xlim) && ax.ylim == old(ax.ylim)
          decreases |ax.texts|
        {
          ax.texts := ax.texts[..keep] + ax.texts[keep + 1..];
        }
        assert ax.texts == before[..kept];
        ghost var base := ax.texts;
        var k := 0;
        while k < |lengths|
          invariant 0 <= k <= |lengths|
          invariant ax.texts == base + BarTexts(lengths[..k])
          invariant ax.containers == old(ax.containers) && ax.xlim == old(ax.xlim) && ax.ylim == old(ax.ylim)
        {
          ax.texts := ax.texts + [BarText(lengths[k])];
          k := k + 1;
          assert BarTexts(lengths[..k]) == BarTexts(lengths[..k - 1]) + [BarText(lengths[k - 1])];
        }
        assert lengths[..k] == lengths;
      }
    }

    /** `for bar in self.ax.containers: bar.remove()`: each `remove` takes the
        container out of the list the loop is iterating over. */
    method RemoveContainers()
      modifies ax
      ensures ax.containers == Survivors(old(ax.containers))
      ensures ax.texts == old(ax.texts) && ax.xlim == old(ax.xlim) && ax.ylim == old(ax.ylim)
    {
      ghost var before := ax.containers;
      var idx := 0;
      while idx < |ax.containers|
        invariant 2 * idx <= |before| + 1
        invariant 2 * idx <= |before| ==> ax.containers == Survivors(before[..2 * idx]) + before[2 * idx..]
        invariant 2 * idx > |before| ==> ax.containers == Survivors(before)
        invariant 2 * idx <= |before| ==> |ax.containers| == |before| - idx
        invariant 2 * idx > |before| ==> |ax.containers| < idx
        invariant ax.texts == old(ax.texts) && ax.xlim == old(ax.xlim) && ax.ylim == old(ax.ylim)
      {
        RemovalStep(before, idx, ax.containers);
        if 2 * idx + 2 <= |before| {
          SurvivorsAdvance(before, idx);
        } else {
          SurvivorsLast(before, idx);
        }
        ax.containers := ax.containers[..idx] + ax.containers[idx + 1..];
        idx := idx + 1;
      }
      if 2 * idx <= |before| {
        assert before[..2 * idx] == before;
        assert before[2 * idx..] == [];
      }
    }

    /** anim_func(i): remove the bar containers, then plot_bars(i). */
    method AnimFunc(i: nat) returns (ok: bool)
      requires Valid() && i < FrameCount()
      modifies ax
      ensures (ax.State(), ok) == PlotStep(config, derived, old(ax.State()).(containers := Survivors(old(ax.containers))), i)
    {
      RemoveContainers();
      ok := PlotBars(i);
    }

    /** init_func: plot_bars(0). */
    method InitFunc() returns (ok: bool)
      requires Valid()
      modifies ax
      ensures (ax.State(), ok) == PlotStep(config, derived, old(ax.State()), 0)
    {
      ok := PlotBars(0);
    }
  }
}

=== FILE: colors.dfy ===
/** `BarChart.get_colors`: the resolved colour list repeated until it covers
    every column, then cut to one colour per column. */
module Colors {
  import opened Results
  import opened Arithmetic

  type Color = string

  /** Python's `list * k`. */
  function Repeat<T>(s: seq<T>, k: nat): (r: seq<T>)
    ensures |r| == k * |s|
  {
    if k == 0 then [] else s + Repeat(s, k - 1)
  }

  /** Entry `i` of `s * k` is entry `i mod |s|` of `s`. */
  lemma {:induction false} RepeatAt<T>(s: seq<T>, k: nat, i: nat)
    requires i < k * |s|
    ensures Repeat(s, k)[i] == s[i % |s|]
  {
    var n := |s|;
    if i < n {
      DivModUnique(0, i, n);
    } else {
      RepeatAt(s, k - 1, i - n);
      var q, m := (i - n) / n, (i - n) % n;
      DivModUnique(q + 1, m, n);
      assert i == (q + 1) * n + m;
    }
  }

  /** `bar_colors * (ncols // n + 1)` when there are fewer colours than
      columns, then `[:ncols]`. An empty colour list with at least one column
      divides by zero. */
  function ChartColors(base: seq<Color>, ncols: nat): (r: Result<seq<Color>>)
    ensures r.Failure? <==> |base| == 0 && ncols > 0
    ensures r.Failure? ==> r.error == ZeroDivision
    ensures r.Success? ==> |r.value| == ncols
  {
    if ncols > |base| then
      if |base| == 0 then Failure(ZeroDivision)
      else
        var reps := ncols / |base| + 1;
        DivModUnique(ncols / |base|, ncols % |base|, |base|);
        assert ncols < reps * |base|;
        Success(Repeat(base, reps)[..ncols])
    else Success(base[..ncols])
  }

  /** Colour `j` is colour `j mod n` of the `n` supplied ones, whether there
      are fewer colours than columns or more. */
  lemma ChartColorsCycle(base: seq<Color>, ncols: nat, j: nat)
    requires |base| > 0 && j < ncols
    ensures ChartColors(base, ncols).Success?
    ensures ChartColors(base, ncols).value[j] == base[j % |base|]
  {
    if ncols > |base| {
      var reps := ncols / |base| + 1;
      DivModUnique(ncols / |base|, ncols % |base|, |base|);
      RepeatAt(base, reps, j);
    } else {
      DivModUnique(0, j, |base|);
    }
  }
}

=== FILE: data_columns.dfy ===
/** `BaseChart.get_data_cols`: the names, as strings, of the numeric columns. */
module DataColumns {
  import opened Results
  import opened Sequences

  /** A DataFrame column label: a string or an integer. */
  datatype ColumnKey = Label(name: string) | Number(n: int)

  /** A column: its label and whether its dtype is a numpy number. */
  datatype Column = Column(key: ColumnKey, numeric: bool)

  function DigitChar(d: nat): char
    requires d < 10
  {
    "0123456789"[d]
  }

  /** Decimal digits of a natural number, without leading zeros. */
  function NatString(n: nat): (s: string)
    ensures |s| > 0
    ensures IsDigits(s)
  {
    if n < 10 then [DigitChar(n)] else NatString(n / 10) + [DigitChar(n % 10)]
  }

  predicate IsDigits(s: string) {
    forall i :: 0 <= i < |s| ==> '0' <= s[i] <= '9'
  }

  /** The number a string of decimal digits denotes. */
  function DecimalValue(s: string): nat
    requires IsDigits(s)
  {
    if s == [] then 0 else 10 * DecimalValue(s[..|s| - 1]) + (s[|s| - 1] as int - '0' as int)
  }

  /** Decimal digits read back as the number they were written from. */
  lemma {:induction false} NatStringRoundTrip(n: nat)
    ensures DecimalValue(NatString(n)) == n
  {
    var s := NatString(n);
    if n >= 10 {
      NatStringRoundTrip(n / 10);
      assert s[..|s| - 1] == NatString(n / 10);
    }
  }

  /** `str(col)`: a string label as it is; an integer label as its decimal
      digits, after a minus sign when it is negative. */
  function KeyString(k: ColumnKey): (s: string)
    ensures k.Label? ==> s == k.name
    ensures k.Number? && k.n >= 0 ==> IsDigits(s) && DecimalValue(s) == k.n
    ensures k.Number? && k.n < 0 ==> |s| > 1 && s[0] == '-' && IsDigits(s[1..]) && DecimalValue(s[1..]) == -k.n
  {
    match k
    case Label(name) => name
    case Number(n) =>
      if n < 0 then
        NatStringRoundTrip(-n);
        assert ("-" + NatString(-n))[1..] == NatString(-n);
        "-" + NatString(-n)
      else
        NatStringRoundTrip(n);
        NatString(n)
  }

  function NumericMask(cols: seq<Column>): (m: seq<bool>)
    ensures |m| == |cols|
    ensures forall j :: 0 <= j < |cols| ==> m[j] == cols[j].numeric
  {
    seq(|cols|, j requires 0 <= j < |cols| => cols[j].numeric)
  }

  function Keys(cols: seq<Column>): (ks: seq<ColumnKey>)
    ensures |ks| == |cols|
    ensures forall j :: 0 <= j < |cols| ==> ks[j] == cols[j].key
  {
    seq(|cols|, j requires 0 <= j < |cols| => cols[j].key)
  }

  function KeyStrings(ks: seq<ColumnKey>): (ss: seq<string>)
    ensures |ss| == |ks|
    ensures forall k :: 0 <= k < |ks| ==> ss[k] == KeyString(ks[k])
  {
    seq(|ks|, k requires 0 <= k < |ks| => KeyString(ks[k]))
  }

  /** Column `i` shares its label with another column, so `df[col]` selects a
      DataFrame rather than a Series and reading its `dtype` raises
      AttributeError. */
  predicate Duplicated(cols: seq<Column>, i: nat)
    requires i < |cols|
  {
    exists j :: 0 <= j < |cols| && j != i && cols[j].key == cols[i].key
  }

  predicate DistinctKeys(cols: seq<Column>) {
    forall a, b :: 0 <= a < b < |cols| ==> cols[a].key != cols[b].key
  }

  lemma DuplicatedNotDistinct(cols: seq<Column>, i: nat)
    requires i < |cols| && Duplicated(cols, i)
    ensures !DistinctKeys(cols)
  {
    var j :| 0 <= j < |cols| && j != i && cols[j].key == cols[i].key;
    if j < i {
      assert cols[j].key == cols[i].key;
    } else {
      assert cols[i].key == cols[j].key;
    }
  }

  lemma NoneDuplicatedDistinct(cols: seq<Column>)
    requires forall k :: 0 <= k < |cols| ==> !Duplicated(cols, k)
    ensures DistinctKeys(cols)
  {
    forall a, b | 0 <= a < b < |cols|
      ensures cols[a].key != cols[b].key
    {
      assert !Duplicated(cols, a);
    }
  }

  /** The labels of the numeric columns, in column order, built the way the
      loop of get_data_cols appends them. */
  function NumericKeys(cols: seq<Column>): seq<ColumnKey> {
    if cols == [] then []
    else
      var front := NumericKeys(cols[..|cols| - 1]);
      if cols[|cols| - 1].numeric then front + [cols[|cols| - 1].key] else front
  }

  /** Appending labels one column at a time selects the same labels as the
      numeric mask. */
  lemma {:induction false} NumericKeysSelect(cols: seq<Column>)
    ensures NumericKeys(cols) == Select(Keys(cols), Positions(NumericMask(cols)))
  {
    if cols != [] {
      var n := |cols| - 1;
      var front := cols[..n];
      NumericKeysSelect(front);
      var p := Positions(NumericMask(front));
      assert NumericMask(front) == NumericMask(cols)[..n];
      assert Select(Keys(front), p) == Select(Keys(cols), p);
      PositionsSnoc(NumericMask(cols), n);
      assert NumericMask(cols)[..n + 1] == NumericMask(cols);
      if cols[n].numeric {
        SelectSnoc(Keys(cols), p, n);
      }
    }
  }

  /** What get_data_cols returns: AmbiguousColumn when a label is repeated,
      otherwise the numeric columns' labels in column order, converted to
      strings, or NoNumericColumns when there are none. */
  function DataCols(cols: seq<Column>): Result<seq<string>> {
    if !DistinctKeys(cols) then Failure(AmbiguousColumn)
    else
      var p := Positions(NumericMask(cols));
      if p == [] then Failure(NoNumericColumns)
      else Success(KeyStrings(Select(Keys(cols), p)))
  }

  /** get_data_cols: a loop that looks each column up and appends the numeric
      columns' labels, the empty-result check, and the conversion to strings. */
  method GetDataCols(cols: seq<Column>) returns (r: Result<seq<string>>)
    ensures r == DataCols(cols)
  {
    var dataCols: seq<ColumnKey> := [];
    var i := 0;
    while i < |cols|
      invariant 0 <= i <= |cols|
      invariant forall k :: 0 <= k < i ==> !Duplicated(cols, k)
      invariant dataCols == NumericKeys(cols[..i])
    {
      if Duplicated(cols, i) {
        DuplicatedNotDistinct(cols, i);
        return Failure(AmbiguousColumn);
      }
      assert cols[..i + 1][..i] == cols[..i];
      if cols[i].numeric {
        dataCols := dataCols + [cols[i].key];
      }
      i := i + 1;
    }
    NoneDuplicatedDistinct(cols);
    assert cols[..|cols|] == cols;
    NumericKeysSelect(cols);
    if dataCols == [] {
      return Failure(NoNumericColumns);
    }
    r := Success(KeyStrings(dataCols));
  }

  /** get_data_cols fails exactly when a label is repeated or no column is
      numeric; a repeated label is met inside the loop, before the empty check. */
  lemma DataColsFailure(cols: seq<Column>)
    ensures DataCols(cols).Failure? <==> !DistinctKeys(cols) || forall j :: 0 <= j < |cols| ==> !cols[j].numeric
    ensures DataCols(cols).Failure? ==>
              DataCols(cols).error == (if DistinctKeys(cols) then NoNumericColumns else AmbiguousColumn)
  {
    PositionsEmpty(NumericMask(cols));
  }

  /** On success the result lists every numeric column exactly once, in
      column order, as its label's string; no other column appears. The
      positions of the listed columns are returned as a witness. */
  lemma NumericColumnsInOrder(cols: seq<Column>) returns (p: seq<nat>)
    requires DataCols(cols).Success?
    ensures Increasing(p) && |p| == |DataCols(cols).value|
    ensures forall k :: 0 <= k < |p| ==>
              p[k] < |cols| && cols[p[k]].numeric && DataCols(cols).value[k] == KeyString(cols[p[k]].key)
    ensures forall j :: 0 <= j < |cols| && cols[j].numeric ==> j in p
  {
    p := Positions(NumericMask(cols));
  }
}

=== FILE: interpolation.dfy ===
/** Re-indexing a table to `row * steps_per_period` and filling the gaps by
    linear interpolation, as `prepare_data` does with `reindex(...).interpolate()`. */
module Interpolation {
  import opened Arithmetic

  /** Every row of `t` has `width` entries (a DataFrame's rows all have one
      entry per column). */
  predicate Rectangular(t: seq<seq<real>>, width: nat) {
    forall r :: 0 <= r < |t| ==> |t[r]| == width
  }

  /** The value `k` sub-steps of `spp` along the segment from `a` to `b`. */
  function Lerp(a: real, b: real, k: nat, spp: nat): real
    requires spp > 0
  {
    a + (b - a) * (k as real) / (spp as real)
  }

  /** Length of `range(df_values.index.max() + 1)` once the original rows sit
      at `0, spp, ..., (rows - 1) * spp`. */
  function ExpandedLength(rows: nat, spp: nat): nat
    requires rows > 0
  {
    (rows - 1) * spp + 1
  }

  /** Sub-step `f` lies in the segment that starts at original row `f / spp`;
      that row exists, and so does the next one when `f` is not itself a
      re-indexed original row. */
  lemma Segment(rows: nat, spp: nat, f: nat)
    requires rows > 0 && spp > 0 && f < ExpandedLength(rows, spp)
    ensures f / spp < rows
    ensures f % spp != 0 ==> f / spp + 1 < rows
    ensures f == (f / spp) * spp + f % spp && f % spp < spp
  {
    var q := f / spp;
    if q >= rows {
      MulMono(rows, q, spp);
      MulMono(1, rows, spp);
      assert false;
    }
    if f % spp != 0 && q + 1 >= rows {
      assert false;
    }
  }

  // ---------------------------------------------------------------------------
  // The expansion

  /** Row `f` of the re-indexed, interpolated table. */
  function ExpandedRow(t: seq<seq<real>>, width: nat, spp: nat, f: nat): (row: seq<real>)
    requires Rectangular(t, width) && |t| > 0 && spp > 0 && f < ExpandedLength(|t|, spp)
    ensures |row| == width
  {
    Segment(|t|, spp, f);
    var r, k := f / spp, f % spp;
    if k == 0 then t[r]
    else seq(width, j requires 0 <= j < width => Lerp(t[r][j], t[r + 1][j], k, spp))
  }

  /** `reindex(range((rows - 1) * spp + 1)).interpolate()` of a table whose
      row `r` has been moved to index `r * spp`. */
  function Expand(t: seq<seq<real>>, width: nat, spp: nat): (e: seq<seq<real>>)
    requires Rectangular(t, width) && |t| > 0 && spp > 0
    ensures |e| == ExpandedLength(|t|, spp)
    ensures Rectangular(e, width)
  {
    seq(ExpandedLength(|t|, spp), f requires 0 <= f < ExpandedLength(|t|, spp) => ExpandedRow(t, width, spp, f))
  }

  /** Every `spp`-th row of a table of `(rows - 1) * spp + 1` rows. */
  function Subsample(e: seq<seq<real>>, rows: nat, spp: nat): (s: seq<seq<real>>)
    requires rows > 0 && |e| == ExpandedLength(rows, spp)
    ensures |s| == rows
  {
    seq(rows, r requires 0 <= r < rows => (MulMono(r, rows - 1, spp); e[r * spp]))
  }

  // ---------------------------------------------------------------------------
  // Properties

  /** Row `r * spp` of the expansion is original row `r`. */
  lemma ExpandAtKnot(t: seq<seq<real>>, width: nat, spp: nat, r: nat)
    requires Rectangular(t, width) && |t| > 0 && spp > 0 && r < |t|
    ensures r * spp < ExpandedLength(|t|, spp)
    ensures Expand(t, width, spp)[r * spp] == t[r]
  {
    MulMono(r, |t| - 1, spp);
    DivModUnique(r, 0, spp);
  }

  /** Row `r * spp + k`, for `0 < k < spp`, lies `k / spp` of the way from
      original row `r` to original row `r + 1`, column by column. */
  lemma ExpandBetweenKnots(t: seq<seq<real>>, width: nat, spp: nat, r: nat, k: nat, j: nat)
    requires Rectangular(t, width) && spp > 0 && r + 1 < |t| && 0 < k < spp && j < width
    ensures r * spp + k < ExpandedLength(|t|, spp)
    ensures Expand(t, width, spp)[r * spp + k][j] == t[r][j] + (t[r + 1][j] - t[r][j]) * (k as real) / (spp as real)
  {
    MulMono(r + 1, |t| - 1, spp);
    DivModUnique(r, k, spp);
  }

  /** Sub-sampling the expansion at the original rows gives back the table. */
  lemma {:induction false} ExpandRoundTrip(t: seq<seq<real>>, width: nat, spp: nat)
    requires Rectangular(t, width) && |t| > 0 && spp > 0
    ensures Subsample(Expand(t, width, spp), |t|, spp) == t
  {
    var s := Subsample(Expand(t, width, spp), |t|, spp);
    forall r | 0 <= r < |t| ensures s[r] == t[r] {
      ExpandAtKnot(t, width, spp, r);
    }
  }

  lemma LerpStep(a: real, b: real, k: nat, spp: nat)
    requires spp > 0
    ensures Lerp(a, b, k + 1, spp) - Lerp(a, b, k, spp) == (b - a) / (spp as real)
  {
    var sp := spp as real;
    assert (b - a) * ((k + 1) as real) == (b - a) * (k as real) + (b - a);
    assert (b - a) * ((k + 1) as real) / sp == (b - a) * (k as real) / sp + (b - a) / sp;
  }

  lemma LerpEnds(a: real, b: real, spp: nat)
    requires spp > 0
    ensures Lerp(a, b, 0, spp) == a
    ensures Lerp(a, b, spp, spp) == b
  {}

  /** Row `r * spp + k`, for `0 <= k <= spp`, is `Lerp` at step `k` of segment `r`. */
  lemma ExpandIsLerp(t: seq<seq<real>>, width: nat, spp: nat, r: nat, k: nat, j: nat)
    requires Rectangular(t, width) && spp > 0 && r + 1 < |t| && k <= spp && j < width
    ensures r * spp + k < ExpandedLength(|t|, spp)
    ensures Expand(t, width, spp)[r * spp + k][j] == Lerp(t[r][j], t[r + 1][j], k, spp)
  {
    MulMono(r + 1, |t| - 1, spp);
    LerpEnds(t[r][j], t[r + 1][j], spp);
    if k == 0 {
      ExpandAtKnot(t, width, spp, r);
    } else if k == spp {
      ExpandAtKnot(t, width, spp, r + 1);
      assert r * spp + k == (r + 1) * spp;
    } else {
      ExpandBetweenKnots(t, width, spp, r, k, j);
    }
  }

  /** Inside a segment the expansion moves by the same amount at every
      sub-step: one `spp`-th of the difference between the two original rows.
      Together with ExpandAtKnot this pins the expansion down. */
  lemma ExpandEqualSteps(t: seq<seq<real>>, width: nat, spp: nat, r: nat, k: nat, j: nat)
    requires Rectangular(t, width) && spp > 0 && r + 1 < |t| && k < spp && j < width
    ensures r * spp + k + 1 < ExpandedLength(|t|, spp)
    ensures var e := Expand(t, width, spp);
            e[r * spp + k + 1][j] - e[r * spp + k][j] == (t[r + 1][j] - t[r][j]) / (spp as real)
  {
    ExpandIsLerp(t, width, spp, r, k, j);
    ExpandIsLerp(t, width, spp, r, k + 1, j);
    LerpStep(t[r][j], t[r + 1][j], k, spp);
  }

  /** Every interpolated entry lies between the two original entries that
      bracket it. */
  lemma ExpandWithinKnots(t: seq<seq<real>>, width: nat, spp: nat, r: nat, k: nat, j: nat)
    requires Rectangular(t, width) && spp > 0 && r + 1 < |t| && k < spp && j < width
    ensures r * spp + k < ExpandedLength(|t|, spp)
    ensures var x := Expand(t, width, spp)[r * spp + k][j];
            (t[r][j] <= x <= t[r + 1][j]) || (t[r + 1][j] <= x <= t[r][j])
  {
    MulMono(r + 1, |t| - 1, spp);
    if k == 0 {
      ExpandAtKnot(t, width, spp, r);
    } else {
      ExpandBetweenKnots(t, width, spp, r, k, j);
      LerpWithin(t[r][j], t[r + 1][j], k, spp);
    }
  }

  /** The fraction `k / spp` of a segment lies in [0, 1], strictly inside
      for a proper sub-step. */
  lemma FractionBounds(k: nat, spp: nat)
    requires k <= spp && spp > 0
    ensures var theta := (k as real) / (spp as real);
            0.0 <= theta <= 1.0 && (0 < k < spp ==> 0.0 < theta < 1.0)
  {
    var kr, sr := k as real, spp as real;
    var theta := kr / sr;
    assert theta * sr == kr;
    if theta > 1.0 {
      MulStrict(sr, 1.0, theta);
    }
    if theta < 0.0 {
      MulStrict(sr, theta, 0.0);
    }
  }

  /** Lerp moves the fraction `k / spp` of the way from `a` to `b`. */
  lemma LerpFraction(a: real, b: real, k: nat, spp: nat)
    requires spp > 0
    ensures Lerp(a, b, k, spp) == a + (b - a) * ((k as real) / (spp as real))
  {
    var d, kr, sr := b - a, k as real, spp as real;
    var theta := kr / sr;
    var q := d * kr / sr;
    assert q * sr == d * kr;
    assert theta * sr == kr;
    assert (d * theta) * sr == d * (theta * sr);
    assert (q - d * theta) * sr == 0.0;
    ZeroProduct(q - d * theta, sr);
  }

  lemma LerpWithin(a: real, b: real, k: nat, spp: nat)
    requires 0 <= k <= spp && spp > 0
    ensures var x := Lerp(a, b, k, spp); (a <= x <= b) || (b <= x <= a)
  {
    var theta := (k as real) / (spp as real);
    FractionBounds(k, spp);
    LerpFraction(a, b, k, spp);
    BetweenEnds(a, b, theta);
    assert Lerp(a, b, k, spp) == a + (b - a) * theta;
  }

  /** Moving a fraction in [0, 1] of the way from `a` to `b` stays between them. */
  lemma BetweenEnds(a: real, b: real, theta: real)
    requires 0.0 <= theta <= 1.0
    ensures var x := a + (b - a) * theta; (a <= x <= b) || (b <= x <= a)
  {
    if a <= b {
      Rising(a, b, theta);
    } else {
      Falling(a, b, theta);
    }
  }

  lemma Rising(a: real, b: real, theta: real)
    requires a <= b && 0.0 <= theta <= 1.0
    ensures a <= a + (b - a) * theta
    ensures a + (b - a) * theta <= b
  {
    DiffScaled(a, b, theta);
  }

  lemma Falling(a: real, b: real, theta: real)
    requires b < a && 0.0 <= theta <= 1.0
    ensures b <= a + (b - a) * theta
    ensures a + (b - a) * theta <= a
  {
    DiffScaled(b, a, theta);
    DiffSwap(a, b, theta);
  }

  lemma DiffScaled(a: real, b: real, theta: real)
    requires a <= b && 0.0 <= theta <= 1.0
    ensures 0.0 <= (b - a) * theta
    ensures (b - a) * theta <= b - a
  {
    ScaleWithin(b - a, theta);
  }

  lemma DiffSwap(a: real, b: real, theta: real)
    ensures (b - a) * theta == -((a - b) * theta)
  {}

  lemma ScaleWithin(x: real, theta: real)
    requires x >= 0.0 && 0.0 <= theta <= 1.0
    ensures 0.0 <= x * theta <= x
  {
    MulWeak(x, 0.0, theta);
    MulWeak(x, theta, 1.0);
  }

  /** Strictly after the first knot and strictly before the second, a
      sub-step stays strictly inside any interval that holds the first knot
      strictly and the second one loosely. */
  lemma LerpStrictlyInside(a: real, b: real, k: nat, spp: nat, lo: real, hi: real)
    requires 0 < k < spp && lo < a < hi && lo <= b <= hi
    ensures lo < Lerp(a, b, k, spp) < hi
  {
    var theta := (k as real) / (spp as real);
    FractionBounds(k, spp);
    LerpFraction(a, b, k, spp);
    if a < b {
      Rising(a, b, theta);
      DiffScaledStrict(a, b, theta);
    } else if a == b {
      assert (b - a) * theta == 0.0;
    } else {
      Falling(a, b, theta);
      DiffScaledStrict(b, a, theta);
      DiffSwap(a, b, theta);
    }
  }

  lemma DiffScaledStrict(a: real, b: real, theta: real)
    requires a < b && 0.0 <= theta < 1.0
    ensures (b - a) * theta < b - a
  {
    MulStrict(b - a, theta, 1.0);
  }
}

=== FILE: layout.dfy ===
/** The arithmetic tail of `calculate_new_figsize`: grow the figure by the
    extra margin that the tick labels took in a probe render, and place the
    axes inside the grown figure. The two axes positions are measured by
    rendering and are inputs here. */
module Layout {
  import opened Results
  import opened Arithmetic

  /** An axes position in figure fractions: lower-left and upper-right corners. */
  datatype Box = Box(x0: real, y0: real, x1: real, y1: real)

  /** The new figure size in inches and the axes rectangle
      `[left, bottom, width, height]` in fractions of it. */
  datatype Figsize = Figsize(width: real, height: real, left: real, bottom: real, axesWidth: real, axesHeight: real)

  /** A side of `inches` grown by the margin between fractions `orig` and `probe`. */
  function Grown(inches: real, orig: real, probe: real): real {
    (probe - orig) * inches + inches
  }

  function NewFigsize(oldW: real, oldH: real, orig: Box, probe: Box): (r: Result<Figsize>)
    ensures r.Failure? <==> Grown(oldW, orig.x0, probe.x0) <= 0.0 || Grown(oldH, orig.y0, probe.y0) <= 0.0
    ensures r.Failure? ==>
              r.error == if Grown(oldW, orig.x0, probe.x0) < 0.0 || Grown(oldH, orig.y0, probe.y0) < 0.0
                         then NegativeFigureSize else NonFiniteAxesRect
  {
    var prevW := orig.x0 * oldW;
    var totalW := probe.x0 * oldW;
    var newW := (totalW - prevW) + oldW;
    var prevH := orig.y0 * oldH;
    var totalH := probe.y0 * oldH;
    var newH := (totalH - prevH) + oldH;
    assert newW == Grown(oldW, orig.x0, probe.x0);
    assert newH == Grown(oldH, orig.y0, probe.y0);
    if newW < 0.0 || newH < 0.0 then Failure(NegativeFigureSize)
    // The coordinates are numpy floats: dividing by a zero size gives inf or
    // nan instead of raising, and `create_figure` then fails in `add_axes`.
    else if newW == 0.0 || newH == 0.0 then Failure(NonFiniteAxesRect)
    else
      var left := totalW / newW;
      var bottom := totalH / newH;
      Success(Figsize(newW, newH, left, bottom, orig.x1 - left, orig.y1 - bottom))
  }

  /** The figure grows by exactly the extra margin the probe measured; in the
      grown figure the axes start at the probe's margin in inches, and their
      top-right corner stays at the original fraction. */
  lemma FigsizeMargins(oldW: real, oldH: real, orig: Box, probe: Box)
    requires NewFigsize(oldW, oldH, orig, probe).Success?
    ensures var f := NewFigsize(oldW, oldH, orig, probe).value;
            && f.width - oldW == (probe.x0 - orig.x0) * oldW
            && f.height - oldH == (probe.y0 - orig.y0) * oldH
            && f.left * f.width == probe.x0 * oldW
            && f.bottom * f.height == probe.y0 * oldH
            && f.left + f.axesWidth == orig.x1
            && f.bottom + f.axesHeight == orig.y1
  {}

  /** A probe margin at least as wide as the original never shrinks the figure. */
  lemma FigsizeGrows(oldW: real, oldH: real, orig: Box, probe: Box)
    requires NewFigsize(oldW, oldH, orig, probe).Success?
    requires oldW >= 0.0 && oldH >= 0.0 && probe.x0 >= orig.x0 && probe.y0 >= orig.y0
    ensures NewFigsize(oldW, oldH, orig, probe).value.width >= oldW
    ensures NewFigsize(oldW, oldH, orig, probe).value.height >= oldH
  {
    FigsizeMargins(oldW, oldH, orig, probe);
    MulNonNeg(probe.x0 - orig.x0, oldW);
    MulNonNeg(probe.y0 - orig.y0, oldH);
  }

  /** The axes keep the width in inches they had in the probe only when the
      margin did not change or the axes reached the right edge of the figure:
      the extra margin is added to the figure, but the right edge is kept as a
      fraction, so the right margin grows with it. */
  lemma AxesWidthKeptOnlyAtRightEdge(oldW: real, oldH: real, orig: Box, probe: Box)
    requires NewFigsize(oldW, oldH, orig, probe).Success? && oldW > 0.0
    ensures var f := NewFigsize(oldW, oldH, orig, probe).value;
            f.axesWidth * f.width == (orig.x1 - orig.x0) * oldW <==> probe.x0 == orig.x0 || orig.x1 == 1.0
  {
    var f := NewFigsize(oldW, oldH, orig, probe).value;
    var d := probe.x0 - orig.x0;
    assert f.width == oldW * (1.0 + d);
    assert f.left * f.width == probe.x0 * oldW;
    assert f.axesWidth * f.width == orig.x1 * f.width - probe.x0 * oldW;
    assert f.axesWidth * f.width - (orig.x1 - orig.x0) * oldW == oldW * (d * (orig.x1 - 1.0));
    ZeroProduct(oldW, d * (orig.x1 - 1.0));
    ZeroProduct(d, orig.x1 - 1.0);
  }
}

=== FILE: output.dfy ===
/** Saving an animation: the writer chosen from the file name, and the number
    of frames `animate_multiple_plots` asks for. */
module Output {
  import opened Results
  import opened Sequences

  /** `filename.split(".")[-1]`: the longest suffix without a dot. It is
      preceded by a dot unless it is the whole name. */
  function Extension(name: string): (e: string)
    ensures '.' !in e
    ensures |e| <= |name| && e == name[|name| - |e|..]
    ensures |e| < |name| ==> name[|name| - |e| - 1] == '.'
  {
    if name == [] then []
    else if name[|name| - 1] == '.' then []
    else Extension(name[..|name| - 1]) + [name[|name| - 1]]
  }

  /** The test the save paths use to pick the imagemagick writer. */
  predicate UsesGifWriter(name: string) {
    Extension(name) == "gif"
  }

  /** The gif writer is chosen exactly for names ending in ".gif" and for the
      bare name "gif". */
  lemma GifRouting(name: string)
    ensures UsesGifWriter(name) <==> name == "gif" || (|name| >= 4 && name[|name| - 4..] == ".gif")
  {
    var e := Extension(name);
    var n := |name|;
    if e == "gif" && n > 3 {
      assert name[n - 4..] == [name[n - 4]] + e;
    }
    if n >= 4 && name[n - 4..] == ".gif" {
      assert name[n - 4] == '.';
    }
  }

  datatype Writer = DefaultWriter | ImageMagick

  /** The arguments of `anim.save(...)`. */
  datatype SaveCall = SaveCall(filename: string, fps: real, writer: Writer)

  /** The save call of BarChart.make_animation and animate_multiple_plots. */
  function Save(filename: string, fps: real): (c: SaveCall)
    ensures c.filename == filename && c.fps == fps
    ensures c.writer == ImageMagick <==> filename == "gif" || (|filename| >= 4 && filename[|filename| - 4..] == ".gif")
  {
    GifRouting(filename);
    SaveCall(filename, fps, if UsesGifWriter(filename) then ImageMagick else DefaultWriter)
  }

  /** The last frame index of each chart: `max(plot.get_frames())`. */
  function LastFrames(frameCounts: seq<nat>): (r: seq<int>)
    ensures |r| == |frameCounts|
    ensures forall k :: 0 <= k < |r| ==> r[k] == frameCounts[k] as int - 1
  {
    seq(|frameCounts|, k requires 0 <= k < |frameCounts| => frameCounts[k] as int - 1)
  }

  /** The frame count animate_multiple_plots passes to FuncAnimation, as
      written: `min([max(plot.get_frames()) for plot in plots])`. `max` of a
      chart without frames and `min` of no charts raise ValueError. */
  function MultiPlotFrameCount(frameCounts: seq<nat>): (r: Result<int>)
    ensures r.Failure? <==> frameCounts == [] || 0 in frameCounts
  {
    if 0 in frameCounts || frameCounts == [] then Failure(EmptySequence)
    else Success(Min(LastFrames(frameCounts)))
  }

  /** As written, the multi-plot animation runs one frame short of its
      shortest chart: the count is one less than some chart's frame count,
      so that chart's last frame is never drawn, and every chart has frames
      left over. */
  lemma MultiPlotSkipsLastFrame(frameCounts: seq<nat>) returns (k: nat)
    requires MultiPlotFrameCount(frameCounts).Success?
    ensures k < |frameCounts|
    ensures MultiPlotFrameCount(frameCounts).value == frameCounts[k] - 1
    ensures forall m :: 0 <= m < |frameCounts| ==> MultiPlotFrameCount(frameCounts).value < frameCounts[m]
  {
    var last := LastFrames(frameCounts);
    var c := Min(last);
    var w :| 0 <= w < |last| && last[w] == c;
    k := w;
  }

  /** Charts of 10 and 15 frames animate together for 9 frames. */
  lemma MultiPlotTenAndFifteen()
    ensures MultiPlotFrameCount([10, 15]) == Success(9)
  {
    assert LastFrames([10, 15]) == [9, 14];
  }

  /** The evidently intended count: the frame count of the shortest chart. */
  function IntendedMultiPlotFrameCount(frameCounts: seq<nat>): (r: Result<nat>)
    ensures r.Failure? <==> frameCounts == []
  {
    if frameCounts == [] then Failure(EmptySequence)
    else
      var counts := seq(|frameCounts|, k requires 0 <= k < |frameCounts| => frameCounts[k] as int);
      var m := Min(counts);
      assert m in counts;
      Success(m as nat)
  }

  /** With the intended count every frame drawn exists in every chart, and
      the shortest chart is drawn to its last frame. */
  lemma IntendedMultiPlotShowsShortest(frameCounts: seq<nat>) returns (k: nat)
    requires frameCounts != []
    ensures k < |frameCounts|
    ensures IntendedMultiPlotFrameCount(frameCounts).value == frameCounts[k]
    ensures forall m :: 0 <= m < |frameCounts| ==> IntendedMultiPlotFrameCount(frameCounts).value <= frameCounts[m]
  {
    var counts := seq(|frameCounts|, j requires 0 <= j < |frameCounts| => frameCounts[j] as int);
    var w :| 0 <= w < |counts| && counts[w] == Min(counts);
    k := w;
    forall m | 0 <= m < |frameCounts|
      ensures IntendedMultiPlotFrameCount(frameCounts).value <= frameCounts[m]
    {
      assert counts[m] == frameCounts[m];
    }
  }
}

=== FILE: params.dfy ===
/** Chart parameters: `validate_params`, `get_label_position`, the `n_bars`
    default, and the frame rate and interval arithmetic. */
module Params {
  import opened Results
  import opened Ranking

  /** What was passed as `fig`. */
  datatype FigureArg = NoFigure | AFigure | NotAFigure

  /** BarChart.validate_params: the `fig` type check of the base class first,
      then `sort`, then `orientation`. Nothing in the chart calls it, so the
      rest of the model accepts any strings for `sort` and `orientation`. */
  function ValidateParams(fig: FigureArg, sort: string, orientation: string): (r: Result<()>)
    ensures r.Success? <==> fig != NotAFigure && (sort == "asc" || sort == "desc") && (orientation == "h" || orientation == "v")
    ensures fig == NotAFigure ==> r == Failure(FigureTypeError)
    ensures fig != NotAFigure && sort != "asc" && sort != "desc" ==> r == Failure(SortValueError)
    ensures fig != NotAFigure && (sort == "asc" || sort == "desc") && orientation != "h" && orientation != "v" ==>
              r == Failure(OrientationValueError)
  {
    if fig == NotAFigure then Failure(FigureTypeError)
    else if sort != "asc" && sort != "desc" then Failure(SortValueError)
    else if orientation != "h" && orientation != "v" then Failure(OrientationValueError)
    else Success(())
  }

  /** get_label_position: where, in axes fractions, the period label goes. */
  function LabelPosition(orientation: string, sort: string): (r: (real, real))
    ensures 0.0 < r.0 < 1.0 && 0.0 < r.1 < 1.0
  {
    if orientation == "h" then (0.6, if sort == "desc" then 0.25 else 0.8)
    else (if sort == "desc" then 0.7 else 0.1, 0.8)
  }

  /** For valid parameters the period label sits away from the largest bars:
      along the axis that positions the bars (y for "h", x for "v") it is in
      the lower half exactly when the ranks are inverted, that is exactly when
      rank 1 is drawn at the high end of that axis; along the value axis it is
      always in the far half, where short bars leave room. */
  lemma LabelAwayFromLeader(orientation: string, sort: string)
    requires orientation == "h" || orientation == "v"
    requires sort == "asc" || sort == "desc"
    ensures var (x, y) := LabelPosition(orientation, sort);
            var along := if orientation == "h" then y else x;
            var across := if orientation == "h" then x else y;
            (along < 0.5 <==> Inverts(sort, orientation)) && across > 0.5
  {}

  /** `self.n_bars or self.df.shape[1]`: zero (or None) means one bar slot per column. */
  function EffectiveBars(nBars: int, ncols: nat): int {
    if nBars == 0 then ncols else nBars
  }

  /** With the default `n_bars`, every column of the row gets a bar in every
      period, whatever the sort and orientation. */
  lemma DefaultBarsShowEveryColumn(v: seq<real>, j: nat, sort: string, orientation: string)
    requires j < |v|
    ensures var n := EffectiveBars(0, |v|);
            0.0 < Placement(v, j, n, sort, orientation) < (n + 1) as real
  {
    ShownIffTopRanked(v, j, |v|, sort, orientation);
  }

  /** `1000 / period_length * steps_per_period`. */
  function Fps(periodLength: int, spp: int): (r: Result<real>)
    ensures r.Failure? <==> periodLength == 0
  {
    if periodLength == 0 then Failure(ZeroDivision)
    else Success(1000.0 / (periodLength as real) * (spp as real))
  }

  /** `period_length / steps_per_period`, the milliseconds between frames. */
  function Interval(periodLength: int, spp: int): (r: Result<real>)
    ensures r.Failure? <==> spp == 0
  {
    if spp == 0 then Failure(ZeroDivision)
    else Success((periodLength as real) / (spp as real))
  }

  /** Frame rate and frame interval agree: their product is one second. */
  lemma FpsTimesInterval(periodLength: int, spp: int)
    requires periodLength != 0 && spp != 0
    ensures Fps(periodLength, spp).Success? && Interval(periodLength, spp).Success?
    ensures Fps(periodLength, spp).value * Interval(periodLength, spp).value == 1000.0
  {
    var p, s := periodLength as real, spp as real;
    assert 1000.0 / p * s * (p / s) == 1000.0 * (s / s) * (p / p);
  }
}

=== FILE: preparation.dfy ===
/** `BarChart.prepare_data`: the value table and the rank table, both
    re-indexed to sub-steps and linearly interpolated. */
module Preparation {
  import opened Results
  import opened Ranking
  import opened Interpolation

  datatype Prepared = Prepared(values: seq<seq<real>>, ranks: seq<seq<real>>)

  /** The rank table at the original rows: ranked, clipped and, for (desc, h)
      and (asc, v), inverted. */
  function RankTable(t: seq<seq<real>>, nBars: int, sort: string, orientation: string): (rt: seq<seq<real>>)
    ensures |rt| == |t|
    ensures forall r :: 0 <= r < |t| ==> |rt[r]| == |t[r]|
  {
    seq(|t|, r requires 0 <= r < |t| => PlacementRow(t[r], nBars, sort, orientation))
  }

  /** prepare_data. A table without rows fails: its index maximum is NaN and
      `range(NaN + 1)` raises. */
  function PrepareData(t: seq<seq<real>>, width: nat, spp: nat, nBars: int, sort: string, orientation: string): (r: Result<Prepared>)
    requires Rectangular(t, width) && spp > 0
    ensures r.Failure? <==> |t| == 0
    ensures r.Failure? ==> r.error == EmptyTable
    ensures r.Success? ==>
              && |r.value.values| == |r.value.ranks| == (|t| - 1) * spp + 1
              && Rectangular(r.value.values, width) && Rectangular(r.value.ranks, width)
  {
    if |t| == 0 then Failure(EmptyTable)
    else Success(Prepared(Expand(t, width, spp), Expand(RankTable(t, nBars, sort, orientation), width, spp)))
  }

  /** At sub-step `r * spp` the prepared tables hold original row `r` and its
      ranks; at `r * spp + k`, `0 < k < spp`, both are `k / spp` of the way to
      row `r + 1`. */
  lemma PreparedRows(t: seq<seq<real>>, width: nat, spp: nat, nBars: int, sort: string, orientation: string, r: nat, k: nat, j: nat)
    requires Rectangular(t, width) && spp > 0 && r < |t| && k < spp && j < width
    requires k > 0 ==> r + 1 < |t|
    ensures PrepareData(t, width, spp, nBars, sort, orientation).Success?
    ensures var p := PrepareData(t, width, spp, nBars, sort, orientation).value;
            r * spp + k < |p.values|
    ensures var p := PrepareData(t, width, spp, nBars, sort, orientation).value;
            k == 0 ==> p.values[r * spp] == t[r] && p.ranks[r * spp][j] == Placement(t[r], j, nBars, sort, orientation)
    ensures var p := PrepareData(t, width, spp, nBars, sort, orientation).value;
            k > 0 ==>
              && p.values[r * spp + k][j] == Lerp(t[r][j], t[r + 1][j], k, spp)
              && p.ranks[r * spp + k][j] == Lerp(Placement(t[r], j, nBars, sort, orientation),
                                                 Placement(t[r + 1], j, nBars, sort, orientation), k, spp)
  {
    var rt := RankTable(t, nBars, sort, orientation);
    ExpandAtKnot(t, width, spp, r);
    ExpandAtKnot(rt, width, spp, r);
    if k > 0 {
      ExpandIsLerp(t, width, spp, r, k, j);
      ExpandIsLerp(rt, width, spp, r, k, j);
    }
  }

  /** Every entry of the rank table lies in [1, n_bars + 1], or in [0, n_bars]
      for (desc, h) and (asc, v): interpolation keeps it between two entries
      that already do. */
  lemma RankTableBounds(t: seq<seq<real>>, width: nat, spp: nat, nBars: int, sort: string, orientation: string, f: nat, j: nat)
    requires Rectangular(t, width) && spp > 0 && |t| > 0 && nBars >= 0 && j < width
    requires f < (|t| - 1) * spp + 1
    ensures var x := PrepareData(t, width, spp, nBars, sort, orientation).value.ranks[f][j];
            if Inverts(sort, orientation) then 0.0 <= x <= nBars as real else 1.0 <= x <= (nBars + 1) as real
  {
    Segment(|t|, spp, f);
    var r, k := f / spp, f % spp;
    PreparedRows(t, width, spp, nBars, sort, orientation, r, k, j);
    var x := PrepareData(t, width, spp, nBars, sort, orientation).value.ranks[f][j];
    var lo, hi := if Inverts(sort, orientation) then 0.0 else 1.0, if Inverts(sort, orientation) then nBars as real else (nBars + 1) as real;
    var a := Placement(t[r], j, nBars, sort, orientation);
    PlacementBounds(t[r], j, nBars, sort, orientation);
    assert lo <= a <= hi;
    if k > 0 {
      var b := Placement(t[r + 1], j, nBars, sort, orientation);
      PlacementBounds(t[r + 1], j, nBars, sort, orientation);
      assert lo <= b <= hi;
      LerpWithin(a, b, k, spp);
      assert x == Lerp(a, b, k, spp);
    } else {
      assert x == a;
    }
    assert lo <= x <= hi;
  }

  /** At an original row, the bar filter `0 < rank < n_bars + 1` keeps exactly
      the columns ranked within the top `n_bars`. */
  lemma ShownAtOriginalRow(t: seq<seq<real>>, width: nat, spp: nat, nBars: int, sort: string, orientation: string, r: nat, j: nat)
    requires Rectangular(t, width) && spp > 0 && r < |t| && j < width
    ensures var p := PrepareData(t, width, spp, nBars, sort, orientation).value;
            r * spp < |p.ranks|
            && ((0.0 < p.ranks[r * spp][j] < (nBars + 1) as real) <==> Rank(t[r], j) <= nBars)
  {
    PreparedRows(t, width, spp, nBars, sort, orientation, r, 0, j);
    ShownIffTopRanked(t[r], j, nBars, sort, orientation);
  }

  /** With at least one column and `n_bars >= 1`, every sub-step keeps at least
      one bar: the leader of the segment's first row stays strictly inside
      (0, n_bars + 1) until the next original row. */
  lemma EveryFrameShowsABar(t: seq<seq<real>>, width: nat, spp: nat, nBars: int, sort: string, orientation: string, f: nat)
    returns (j: nat)
    requires Rectangular(t, width) && spp > 0 && |t| > 0 && width > 0 && nBars >= 1
    requires f < (|t| - 1) * spp + 1
    ensures j < width
    ensures var x := PrepareData(t, width, spp, nBars, sort, orientation).value.ranks[f][j];
            0.0 < x < (nBars + 1) as real
  {
    Segment(|t|, spp, f);
    var r, k := f / spp, f % spp;
    j := LeaderExists(t[r]);
    PreparedRows(t, width, spp, nBars, sort, orientation, r, k, j);
    PlacementBounds(t[r], j, nBars, sort, orientation);
    if k > 0 {
      PlacementBounds(t[r + 1], j, nBars, sort, orientation);
      LerpStrictlyInside(Placement(t[r], j, nBars, sort, orientation), Placement(t[r + 1], j, nBars, sort, orientation),
                         k, spp, 0.0, (nBars + 1) as real);
    }
  }
}

=== FILE: ranking.dfy ===
/** Per-row ranking of a table row, as `prepare_data` computes it with
    `rank(axis=1, method="first", ascending=False)`, then `clip(upper=n_bars+1)`
    and, for two of the four sort/orientation combinations, `n_bars + 1 - rank`. */
module Ranking {

  /** Column `k` ranks ahead of column `j` in row `v`: a larger value, or an
      equal value in an earlier column (the "first" tie-break). */
  predicate Ahead(v: seq<real>, k: nat, j: nat)
    requires k < |v| && j < |v|
  {
    v[k] > v[j] || (v[k] == v[j] && k < j)
  }

  /** The columns ranked ahead of column `j`. */
  function AheadOf(v: seq<real>, j: nat): set<nat>
    requires j < |v|
  {
    set k: nat | k < |v| && Ahead(v, k, j)
  }

  /** The descending "first" rank of column `j`: one plus the number of columns
      with a larger value plus the number of earlier columns with an equal value. */
  function Rank(v: seq<real>, j: nat): (r: int)
    requires j < |v|
    ensures 1 <= r <= |v|
  {
    ProperSubsetCard(AheadOf(v, j), Indices(|v|), j);
    1 + |AheadOf(v, j)|
  }

  /** The ranks of a whole row. */
  function RankRow(v: seq<real>): (r: seq<int>)
    ensures |r| == |v|
  {
    seq(|v|, j requires 0 <= j < |v| => Rank(v, j))
  }

  /** `clip(upper=n_bars + 1)`: ranks above `n_bars + 1` are lowered to it,
      the others are kept. */
  function Clip(r: int, nBars: int): (c: int)
    ensures c <= nBars + 1
    ensures c == r || (r > nBars + 1 && c == nBars + 1)
  {
    if r > nBars + 1 then nBars + 1 else r
  }

  /** The sort/orientation combinations for which prepare_data replaces each
      rank by `n_bars + 1 - rank`. */
  predicate Inverts(sort: string, orientation: string) {
    (sort == "desc" && orientation == "h") || (sort == "asc" && orientation == "v")
  }

  /** The entry of the rank table for column `j` of an original row. */
  function Placement(v: seq<real>, j: nat, nBars: int, sort: string, orientation: string): real
    requires j < |v|
  {
    var c := Clip(Rank(v, j), nBars);
    if Inverts(sort, orientation) then (nBars + 1 - c) as real else c as real
  }

  /** The rank-table row for an original row. */
  function PlacementRow(v: seq<real>, nBars: int, sort: string, orientation: string): (r: seq<real>)
    ensures |r| == |v|
  {
    seq(|v|, j requires 0 <= j < |v| => Placement(v, j, nBars, sort, orientation))
  }

  // ---------------------------------------------------------------------------
  // Cardinality facts about index sets

  /** The set {0, ..., n - 1}. */
  function Indices(n: nat): (s: set<nat>)
    ensures |s| == n
    ensures forall k: nat :: k in s <==> k < n
  {
    if n == 0 then {} else Indices(n - 1) + {n - 1}
  }

  lemma ProperSubsetCard<T>(a: set<T>, b: set<T>, x: T)
    requires a <= b && x in b && x !in a
    ensures |a| < |b|
  {
    assert b == a + (b - a);
    assert x in b - a;
  }

  // ---------------------------------------------------------------------------
  // Properties of the rank

  /** A column ranked ahead of another has the strictly smaller rank. */
  lemma AheadHasSmallerRank(v: seq<real>, k: nat, j: nat)
    requires k < |v| && j < |v| && Ahead(v, k, j)
    ensures Rank(v, k) < Rank(v, j)
  {
    assert AheadOf(v, k) <= AheadOf(v, j);
    ProperSubsetCard(AheadOf(v, k), AheadOf(v, j), k);
  }

  /** Rank order is exactly the order "larger value first, ties to the earlier
      column": in particular a larger value always gets the smaller rank. */
  lemma RankOrder(v: seq<real>, k: nat, j: nat)
    requires k < |v| && j < |v|
    ensures Rank(v, k) < Rank(v, j) <==> Ahead(v, k, j)
    ensures v[k] > v[j] ==> Rank(v, k) < Rank(v, j)
    ensures v[k] == v[j] && k < j ==> Rank(v, k) < Rank(v, j)
  {
    if Ahead(v, k, j) {
      AheadHasSmallerRank(v, k, j);
    } else if k != j {
      AheadHasSmallerRank(v, j, k);
    }
  }

  /** Distinct columns never share a rank. */
  lemma RankInjective(v: seq<real>, k: nat, j: nat)
    requires k < |v| && j < |v| && k != j
    ensures Rank(v, k) != Rank(v, j)
  {
    RankOrder(v, k, j);
    RankOrder(v, j, k);
  }

  /** The ranks of the first `m` columns. */
  function RankImage(v: seq<real>, m: nat): (s: set<int>)
    requires m <= |v|
    ensures forall j: nat :: j < m ==> Rank(v, j) in s
  {
    if m == 0 then {} else RankImage(v, m - 1) + {Rank(v, m - 1)}
  }

  /** Every value in the image is the rank of one of the first `m` columns. */
  lemma {:induction false} RankImageWitness(v: seq<real>, m: nat, x: int) returns (j: nat)
    requires m <= |v| && x in RankImage(v, m)
    ensures j < m && Rank(v, j) == x
  {
    if x == Rank(v, m - 1) {
      j := m - 1;
    } else {
      j := RankImageWitness(v, m - 1, x);
    }
  }

  lemma {:induction false} RankImageCard(v: seq<real>, m: nat)
    requires m <= |v|
    ensures |RankImage(v, m)| == m
  {
    if m > 0 {
      RankImageCard(v, m - 1);
      var prev, x := RankImage(v, m - 1), Rank(v, m - 1);
      if x in prev {
        var j := RankImageWitness(v, m - 1, x);
        RankInjective(v, j, m - 1);
      }
      assert RankImage(v, m) == prev + {x};
    }
  }

  /** The set {1, ..., n}. */
  function RankValues(n: nat): (s: set<int>)
    ensures |s| == n
    ensures forall r :: r in s <==> 1 <= r <= n
  {
    if n == 0 then {} else RankValues(n - 1) + {n}
  }

  /** Before clipping, the ranks of a row of n columns are a permutation of
      1..n: each lies in 1..n, no two columns share one, and every value of
      1..n is the rank of some column. */
  lemma RankPermutation(v: seq<real>)
    ensures forall j :: 0 <= j < |v| ==> 1 <= RankRow(v)[j] <= |v|
    ensures forall j, k :: 0 <= j < k < |v| ==> RankRow(v)[j] != RankRow(v)[k]
    ensures forall r :: 1 <= r <= |v| ==> r in RankRow(v)
  {
    forall j, k | 0 <= j < k < |v| ensures RankRow(v)[j] != RankRow(v)[k] {
      RankInjective(v, j, k);
    }
    var image := RankImage(v, |v|);
    RankImageCard(v, |v|);
    assert image <= RankValues(|v|) by {
      forall x | x in image ensures x in RankValues(|v|) {
        var j := RankImageWitness(v, |v|, x);
      }
    }
    forall r | 1 <= r <= |v| ensures r in RankRow(v) {
      if r !in image {
        ProperSubsetCard(image, RankValues(|v|), r);
      }
      var j := RankImageWitness(v, |v|, r);
      assert RankRow(v)[j] == r;
    }
  }

  /** Every non-empty row has a column of rank 1. */
  lemma LeaderExists(v: seq<real>) returns (j: nat)
    requires |v| > 0
    ensures j < |v| && Rank(v, j) == 1
  {
    RankPermutation(v);
    assert 1 in RankRow(v);
    var w :| 0 <= w < |v| && RankRow(v)[w] == 1;
    j := w;
  }

  /** After `clip(upper=n_bars+1)` every rank lies in [1, n_bars+1], and ranks
      already within that range are unchanged. */
  lemma ClippedRankBounds(v: seq<real>, j: nat, nBars: int)
    requires j < |v| && nBars >= 0
    ensures 1 <= Clip(Rank(v, j), nBars) <= nBars + 1
    ensures Rank(v, j) <= nBars + 1 ==> Clip(Rank(v, j), nBars) == Rank(v, j)
  {
  }

  /** For (desc, h) and (asc, v) the entry is `n_bars + 1 - clipped rank` and
      lies in [0, n_bars]; for the other combinations it is the clipped rank,
      in [1, n_bars + 1]. */
  lemma PlacementBounds(v: seq<real>, j: nat, nBars: int, sort: string, orientation: string)
    requires j < |v| && nBars >= 0
    ensures var p := Placement(v, j, nBars, sort, orientation);
            var c := Clip(Rank(v, j), nBars);
            if Inverts(sort, orientation)
            then p == (nBars + 1 - c) as real && 0.0 <= p <= nBars as real
            else p == c as real && 1.0 <= p <= (nBars + 1) as real
  {
    ClippedRankBounds(v, j, nBars);
  }

  /** At an original row the bar filter `0 < rank < n_bars + 1` keeps exactly
      the columns whose unclipped rank is within the top `n_bars`, whatever
      the sort and orientation. */
  lemma ShownIffTopRanked(v: seq<real>, j: nat, nBars: int, sort: string, orientation: string)
    requires j < |v|
    ensures var p := Placement(v, j, nBars, sort, orientation);
            (0.0 < p < (nBars + 1) as real) <==> Rank(v, j) <= nBars
  {
  }
}

=== FILE: results.dfy ===
/** The exceptions raised by the chart code, and the Result type that carries them. */
module Results {

  /** One constructor per distinct failure of the modelled code. */
  datatype ChartError =
    | EmptyTable            // prepare_data on a table without rows: the index maximum is NaN
    | ZeroDivision          // a Python division or integer division by zero
    | NoNumericColumns      // get_data_cols: "No numeric data columns found for plotting."
    | AmbiguousColumn       // get_data_cols: a repeated label selects a DataFrame, which has no `dtype`
    | NegativeFigureSize    // Figure.set_size_inches: a negative width or height (ValueError)
    | NonFiniteAxesRect     // Figure.add_axes: a rect entry is inf or nan (ValueError)
    | EmptySequence         // max() or min() of an empty sequence (ValueError)
    | FigureTypeError       // validate_params: `fig` is not a matplotlib Figure
    | SortValueError        // validate_params: `sort` is not "asc" or "desc"
    | OrientationValueError // validate_params: `orientation` is not "h" or "v"

  datatype Result<+T> = Success(value: T) | Failure(error: ChartError) {
    predicate IsFailure() { Failure? }

    function PropagateFailure<U>(): Result<U>
      requires Failure?
    {
      Failure(error)
    }

    function Extract(): T
      requires Success?
    {
      value
    }
  }
}

=== FILE: sequences.dfy ===
/** Sequence helpers shared by the chart model: boolean-mask selection and maxima. */
module Sequences {

  predicate Increasing(p: seq<nat>) {
    forall a, b :: 0 <= a < b < |p| ==> p[a] < p[b]
  }

  /** The indices at which `mask` holds, in increasing order; indexing a numpy
      array with a boolean mask keeps exactly these positions. */
  function Positions(mask: seq<bool>): (p: seq<nat>)
    ensures forall k :: 0 <= k < |p| ==> p[k] < |mask| && mask[p[k]]
    ensures forall j :: 0 <= j < |mask| && mask[j] ==> j in p
    ensures Increasing(p)
    ensures |p| <= |mask|
  {
    if mask == [] then []
    else
      var last := |mask| - 1;
      var front := Positions(mask[..last]);
      if mask[last] then front + [last] else front
  }

  /** No position is selected exactly when the mask holds nowhere. */
  lemma PositionsEmpty(mask: seq<bool>)
    ensures Positions(mask) == [] <==> forall j :: 0 <= j < |mask| ==> !mask[j]
  {
    var p := Positions(mask);
    if p != [] {
      assert mask[p[0]];
    }
  }

  /** Extending the mask by one entry appends that entry's index when it holds. */
  lemma PositionsSnoc(mask: seq<bool>, i: nat)
    requires i < |mask|
    ensures Positions(mask[..i + 1]) == Positions(mask[..i]) + (if mask[i] then [i] else [])
  {
    assert mask[..i + 1][..i] == mask[..i];
  }

  /** The elements of `s` at positions `p`, in the order of `p`. */
  function Select<T>(s: seq<T>, p: seq<nat>): (r: seq<T>)
    requires forall k :: 0 <= k < |p| ==> p[k] < |s|
    ensures |r| == |p|
    ensures forall k :: 0 <= k < |p| ==> r[k] == s[p[k]]
  {
    seq(|p|, k requires 0 <= k < |p| => s[p[k]])
  }

  /** Selecting one more position appends that element. */
  lemma SelectSnoc<T>(s: seq<T>, p: seq<nat>, i: nat)
    requires forall k :: 0 <= k < |p| ==> p[k] < |s|
    requires i < |s|
    ensures Select(s, p + [i]) == Select(s, p) + [s[i]]
  {
  }

  /** numpy's `max()` of a non-empty array. */
  function Max(s: seq<real>): (m: real)
    requires |s| > 0
    ensures m in s
    ensures forall k :: 0 <= k < |s| ==> s[k] <= m
  {
    if |s| == 1 then s[0]
    else
      var rest := Max(s[1..]);
      assert forall k :: 1 <= k < |s| ==> s[k] == s[1..][k - 1];
      if s[0] >= rest then s[0] else rest
  }

  /** Python's `min()` of a non-empty list of integers. */
  function Min(s: seq<int>): (m: int)
    requires |s| > 0
    ensures m in s
    ensures forall k :: 0 <= k < |s| ==> m <= s[k]
  {
    if |s| == 1 then s[0]
    else
      var rest := Min(s[1..]);
      assert forall k :: 1 <= k < |s| ==> s[k] == s[1..][k - 1];
      if s[0] <= rest then s[0] else rest
  }
}
